=== FILE: README.md ===
# E-Power workshop dashboard — client-side state model in Dafny

The E-Power dashboard is a React front end for a bicycle workshop. Employees
(painter, assembly, disassembly and graphics technicians) and managers log in,
move between screens, and update work items in four areas. This project models
the logic behind those screens as pure Dafny functions over immutable
datatypes, and proves properties about them:

- **session and router** (`App`): logged-out or logged-in with a current
  screen string; login, logout and navigation; the screen-to-view router; the
  choice of navigation bar; a step function over user inputs and the invariant
  every reachable state keeps;
- **login** (`Login`): the six demo accounts, the exact-match credential
  check, quick login;
- **menus** (`Nav`, `EmployeeNav`, `ManagerNav`): role-dependent bottom bar,
  fixed nine-entry side bar, highlight test, drawer toggle;
- **work-item stores** (`PaintingArea`, `AssemblyArea`, `DisassemblyArea`,
  `GraphicsArea`): replace-by-id updates with their frame conditions, toggle
  involutions, the "selected item" copy written alongside the list, the
  absorbing `completed` status, and the upload progress counter;
- **captions** (`Profile`, `EmployeeDashboard`, the label functions of the
  areas, `Text`): `labels[key] || key` lookups and the avatar initials.

Clock reads (`new Date().toLocaleString`, `Date.now`) and random ids
(`Math.random`) are string parameters; nothing assumes they are distinct.
Each `setState(f)` is modelled as applying `f` to the current value, in
program order. The two clock reads of the painting handler are two
parameters.

Behaviour of the code worth knowing before reading the contracts:

- The seed data marks the primer of bike `B-2024-145` complete, so its primer
  button clears it (`PaintingArea.SeedPrimerButtonUndoes`).
- Phase ordering exists only in the buttons' `disabled` flags. The handler has
  no guard, and the primer can be undone after painting
  (`PaintingArea.HandlerHasNoGuard`, `PaintingArea.PaintingWithoutPrimerReachable`).
- `handleReportIssue` appends to the selected copy even when no list entry has
  its id; only the list update is skipped. The model keeps that behaviour.
  `AssemblyArea.HandlersKeepSync` shows the case cannot arise while the copy is
  in sync with the list.

Files: `wrappers.dfy` (Option), `text.dfy` (JavaScript `trim`, `split(' ')`,
label lookup), `users.dfy`, `login.dfy`, `nav.dfy`, `employee_nav.dfy`,
`manager_nav.dfy`, `app.dfy`, `painting.dfy`, `assembly.dfy`,
`disassembly.dfy`, `graphics.dfy`, `profile.dfy`, `employee_dashboard.dfy`.

## Model

| member | source | states |
|---|---|---|
| Users.RoleKey | src/App.tsx:14-22 | every role spelling is one of the eight keys of the role union |
| Users.ParseRole | src/App.tsx:14-22 | a string names a role exactly when it is one of the eight keys |
| Users.RoleKeyRoundTrip | src/App.tsx:14-22 | spelling a role and parsing it back is the identity, in both directions |
| App.LoginShowsDashboard | src/App.tsx:38-41 | after login, from any state, the page is the dashboard of the user's type inside the navigation bar of that type |
| App.LogoutShowsLoginScreen | src/App.tsx:43-49 | logout returns to the start state, whose only page is the login screen with no navigation bar |
| App.NavigateShowsRoutedView | src/App.tsx:52-84 | a navigation request is stored unvalidated: the page becomes whatever the router maps the string to, and the navigation bar stays the same |
| App.HandleLogin | src/App.tsx:38-41 | setter; partners `App.LoginShowsDashboard` and `App.LoginForgetsPriorState`: login installs exactly the given user on the dashboard screen |
| App.HandleLogout | src/App.tsx:43-46 | setter; partners `App.LogoutShowsLoginScreen` and `App.LogoutAfterLogin`: logout leaves no user and the dashboard screen |
| App.Navigate | src/App.tsx:84 | setter; partners `App.NavigateShowsRoutedView` and `App.NavigateLastWins`: the screen becomes the given string, unvalidated, and the user is kept |
| App.LoginForgetsPriorState | src/App.tsx:38-41 | the state after login does not depend on the state before it |
| App.LogoutAfterLogin | src/App.tsx:38-46 | login, any navigation, then logout gives back the start state |
| App.NavigateLastWins | src/App.tsx:102 | of two navigations only the last one matters |
| App.RenderScreen | src/App.tsx:52-75 | the router is total and never yields the login view; the six routed screens map to their own view; every other string maps to the user type's dashboard |
| App.RenderScreenRoundTrip | src/App.tsx:53-74 | routing the screen string of any view a user type can see gives that view back |
| App.DefaultIsDashboard | src/App.tsx:54-73 | the "dashboard" case and the default case agree; "employees" and "tasks" fall to the dashboard |
| App.Render | src/App.tsx:48-104 | with no user the login screen alone is shown, whatever the screen; otherwise managers get the side bar and employees the bottom bar |
| App.RenderIgnoresRole | src/App.tsx:52-75 | the page depends on the user's type only, never on role, name, e-mail or id |
| App.RouterHasNoAuthorisation | src/App.tsx:66-67 | an employee whose screen is "admin" is shown the administration view |
| App.Menu | src/App.tsx:79-104 | the bar's menu starts with "dashboard" and has distinct ids |
| App.Step | src/App.tsx:38-104 | a submit logs in exactly when some demo row matches both fields, then with that row's user, the fresh id and the dashboard screen, and otherwise leaves the session logged out and unchanged; a quick login logs the row's user in on the dashboard; a menu click sets the screen to that entry's id and keeps the user; logout from the profile page returns to the start state; a control not on screen changes nothing |
| App.StepPreservesInv | src/App.tsx:35-104 | the start state and every input keep the invariant: logged out means screen "dashboard"; logged in means a role-consistent user whose screen is in their own menu |
| App.LogoutOnlyFromProfile | src/components/ProfileSettings.tsx:254-262 | the logout button is reachable exactly when the profile page is on screen, and pressing it returns to the start state |
| App.RunInv | src/App.tsx:35-104 | the invariant holds after any sequence of inputs |
| App.EmployeeNeverReachesAdmin | src/components/EmployeeBottomNav.tsx:11-48 | no sequence of inputs shows an employee the administration view, although the router would |
| Login.FindDemoUser | src/components/LoginScreen.tsx:31-33 | the search returns the first row matching both e-mail and password exactly, or none exactly when no row matches |
| Login.Submit | src/components/LoginScreen.tsx:27-46 | submit logs in iff some row matches both fields exactly, with that row's fields and an empty error; otherwise it sets the error "Credenziali non valide" and logs nobody in; the inputs are kept |
| Login.UserFor | src/components/LoginScreen.tsx:36-42 | the user handed to `onLogin` copies name, e-mail, role and type from the row and carries the fresh id; partner `Login.QuickLoginAgreesWithSubmit` |
| Login.QuickLogin | src/components/LoginScreen.tsx:48-56 | a quick login yields the row's name, e-mail, role and type with the fresh id, with no password check |
| Login.DemoTableShape | src/components/LoginScreen.tsx:9-16 | six rows, pairwise distinct e-mails, password "demo" everywhere |
| Login.DemoTableRoles | src/components/LoginScreen.tsx:9-16 | each row's type is the one its role implies; workshop_manager and graphics_manager have no row |
| Login.SubmitPicksThatRow | src/components/LoginScreen.tsx:31-42 | typing a row's e-mail and password logs in exactly that row |
| Login.QuickLoginAgreesWithSubmit | src/components/LoginScreen.tsx:48-56 | quick login of a row gives the same user as submitting that row's credentials |
| Login.SubmitIsExact | src/components/LoginScreen.tsx:31-33 | at the handler, a trailing space, a capital letter or a wrong-case password is rejected with the error message |
| Nav.ActiveCountOfDistinct | src/components/EmployeeBottomNav.tsx:43 | in a menu with distinct ids exactly one item is highlighted when the screen is one of its ids, none otherwise |
| EmployeeNav.NavItems | src/components/EmployeeBottomNav.tsx:11-34 | the bar starts with "dashboard", ends with "profile", has 3 entries for the four employee roles and 2 otherwise, with distinct ids |
| EmployeeNav.NavItemsByRole | src/components/EmployeeBottomNav.tsx:16-31 | the middle entry is painting, assembly, disassembly or graphics by role; every other role gets exactly dashboard and profile |
| EmployeeNav.AtMostOneActive | src/components/EmployeeBottomNav.tsx:43 | at most one entry is highlighted, exactly one when the screen is in the bar |
| EmployeeNav.Click | src/components/EmployeeBottomNav.tsx:48 | a click navigates to the clicked entry's id, which then is the one and only highlighted entry |
| ManagerNav.MenuFor | src/components/ManagerSideNav.tsx:26-36 | nine entries in the fixed order dashboard … profile, with distinct ids |
| ManagerNav.MenuIgnoresUser | src/components/ManagerSideNav.tsx:26-36 | the menu is the same for every manager, whatever role and name |
| ManagerNav.AtMostOneActive | src/components/ManagerSideNav.tsx:84-86 | at most one entry is highlighted, exactly one when the screen is in the menu |
| ManagerNav.Select | src/components/ManagerSideNav.tsx:38-41 | selecting an entry navigates to its id, which then is the one and only highlighted entry, and closes the drawer |
| ManagerNav.CloseOverlay | src/components/ManagerSideNav.tsx:54-58 | the overlay, present only while open, closes the drawer |
| ManagerNav.ToggleDrawer | src/components/ManagerSideNav.tsx:47 | the menu button flips the drawer; partner `ManagerNav.ToggleDrawerTwice` |
| ManagerNav.ToggleDrawerTwice | src/components/ManagerSideNav.tsx:47 | two presses of the menu button restore the drawer |
| PaintingArea.SetPhase | src/components/PaintingArea.tsx:87-95 | the named phase is replaced and the other two are kept |
| PaintingArea.TogglePhase | src/components/PaintingArea.tsx:89-93 | the flag flips; becoming done stamps "now", becoming undone clears the timestamp |
| PaintingArea.TogglePhaseTwice | src/components/PaintingArea.tsx:89-93 | two toggles restore the flag; an undone phase without timestamp comes back identical; a done one comes back done with the second timestamp |
| PaintingArea.ToggleBikePhase | src/components/PaintingArea.tsx:85-96 | only the named phase changes; all other bike fields and phases are kept |
| PaintingArea.CompletePhase | src/components/PaintingArea.tsx:82-99 | length and order kept; bikes with another id unchanged; the matching bike has the phase toggled |
| PaintingArea.CompletePhaseUnknownId | src/components/PaintingArea.tsx:84 | an id no bike carries leaves the list unchanged |
| PaintingArea.CompletePhaseTwice | src/components/PaintingArea.tsx:81-99 | pressing the same phase twice restores every flag of every bike and every non-phase field |
| PaintingArea.CompletedPhases | src/components/PaintingArea.tsx:122-125 | the completed count lies in [0, 3]; 0 iff no phase done, 3 iff all done |
| PaintingArea.ToggleMovesCountByOne | src/components/PaintingArea.tsx:365-366 | each toggle moves the completed count by exactly one, up or down |
| PaintingArea.PhaseEnabled | src/components/PaintingArea.tsx:224-299 | a phase's button is enabled exactly when the phase listed before it is done; the primer's always is; partners `PaintingArea.HandlerHasNoGuard` and `PaintingArea.PaintingWithoutPrimerReachable` |
| PaintingArea.HandlerHasNoGuard | src/components/PaintingArea.tsx:264 | a phase whose button is disabled is still toggled by the handler |
| PaintingArea.PaintingWithoutPrimerReachable | src/components/PaintingArea.tsx:223 | primer stays enabled after painting, so undoing it leaves painting done without primer |
| PaintingArea.HandleCompletePhase | src/components/PaintingArea.tsx:81-119 | the list gets the update; the selected copy gets the same update with its own clock read only when its id matches |
| PaintingArea.SelectBike | src/components/PaintingArea.tsx:373 | opening a bike copies its list entry and leaves the list alone; partner `PaintingArea.SelectAndBackSync` |
| PaintingArea.Back | src/components/PaintingArea.tsx:133 | the back arrow clears the selection only; partner `PaintingArea.SelectAndBackSync` |
| PaintingArea.SelectAndBackSync | src/components/PaintingArea.tsx:133-373 | opening a bike and going back both leave the copy in sync with the list |
| PaintingArea.HandleCompletePhaseKeepsSync | src/components/PaintingArea.tsx:101-118 | with equal clock reads, a copy equal to its list entry stays equal after the dual write |
| PaintingArea.ClockSkewBreaksSync | src/components/PaintingArea.tsx:91-111 | with different clock reads, completing a phase leaves copy and list with different timestamps |
| PaintingArea.SeedPrimerButtonUndoes | src/components/PaintingArea.tsx:32-46 | seed ids are unique; the first bike's primer is already done, so its primer button undoes it |
| AssemblyArea.ToggleItems | src/components/AssemblyArea.tsx:98-100 | entries with the task id flip their flag; ids and texts are kept; length kept |
| AssemblyArea.ToggleBikeItem | src/components/AssemblyArea.tsx:96-101 | only the checklist changes; issues, components and other fields are kept |
| AssemblyArea.ToggleChecklist | src/components/AssemblyArea.tsx:93-104 | length and order kept; bikes with another id unchanged |
| AssemblyArea.ToggleChecklistTwice | src/components/AssemblyArea.tsx:99 | ticking the same box twice is the identity on the whole list |
| AssemblyArea.CompletedTasks | src/components/AssemblyArea.tsx:147-148 | the completed count is at most the checklist length |
| AssemblyArea.AllDoneIffFullCount | src/components/AssemblyArea.tsx:390-391 | the count equals the length exactly when every task is done |
| AssemblyArea.HandleToggleChecklist | src/components/AssemblyArea.tsx:92-118 | the list and, when the id matches, the selected copy get the same toggle; the issue form is untouched |
| AssemblyArea.TrimsToNothing | src/components/AssemblyArea.tsx:121 | the report guard holds exactly when the description is all white space |
| AssemblyArea.HandleReportIssue | src/components/AssemblyArea.tsx:120-144 | no-op without a selection or with a blank description; otherwise one issue with the untrimmed text and urgent flag is appended to the selected bike in list and copy, other bikes unchanged, form reset and hidden |
| AssemblyArea.ReportAddsOneIssue | src/components/AssemblyArea.tsx:123-135 | a successful report grows that bike's issues by one at the end, keeping the earlier ones |
| AssemblyArea.WhitespaceReportIgnored | src/components/AssemblyArea.tsx:121 | any description that is all white space is refused and changes nothing, for example spaces, a tab and a newline |
| AssemblyArea.CancelIssue | src/components/AssemblyArea.tsx:310-314 | cancel hides and clears the form and touches neither the list nor the copy; partner `AssemblyArea.HandlersKeepSync` |
| AssemblyArea.HandlersKeepSync | src/components/AssemblyArea.tsx:106-139 | both handlers and the cancel button (lines 310-314) keep a copy equal to its list entry |
| DisassemblyArea.TypeLabel | src/components/DisassemblyArea.tsx:60-67 | the three job types get their captions; any other string is returned unchanged |
| DisassemblyArea.TypeLabelValues | src/components/DisassemblyArea.tsx:61-65 | the captions are Sostituzione, Revisione, Smontaggio, one per type |
| DisassemblyArea.HandleCompleteJob | src/components/DisassemblyArea.tsx:69-89 | no-op without a selection; otherwise the selected job becomes completed with both texts stored, other jobs unchanged, length kept, selection and text boxes cleared |
| DisassemblyArea.Apply | src/components/DisassemblyArea.tsx:69-203 | every handler keeps the list's length and ids; only completing touches the list |
| DisassemblyArea.CompletedIsAbsorbing | src/components/DisassemblyArea.tsx:77 | no handler moves a job out of completed |
| DisassemblyArea.Enabled | src/components/DisassemblyArea.tsx:91-261 | selecting is offered only from the list and every other control only in a job's detail view; the complete button is disabled for a completed job (line 216) |
| DisassemblyArea.EnabledStepsFreezeCompletedJobs | src/components/DisassemblyArea.tsx:216 | through enabled controls a completed job never changes again and the copy stays in sync |
| DisassemblyArea.HandlerHasNoGuard | src/components/DisassemblyArea.tsx:69-83 | the handler alone would overwrite a completed job's notes |
| GraphicsArea.TypeLabel | src/components/GraphicsArea.tsx:72-80 | the four types get their captions; any other string is returned unchanged |
| GraphicsArea.StatusLabel | src/components/GraphicsArea.tsx:82-91 | the five statuses get captions different from the key; any other string is returned unchanged |
| GraphicsArea.LabelsCoverTheEnumerations | src/components/GraphicsArea.tsx:72-91 | every type and status has a caption and distinct values get distinct captions |
| GraphicsArea.Tick | src/components/GraphicsArea.tsx:98-106 | at 100 or more the tick returns 100 and stops the upload; below it adds 10 |
| GraphicsArea.AfterTicks | src/components/GraphicsArea.tsx:93-107 | along a run started by the button the progress stays in [0, 100] and a multiple of 10, and the upload stops only at 100; partner `GraphicsArea.AfterTicksClosedForm` |
| GraphicsArea.AfterTicksClosedForm | src/components/GraphicsArea.tsx:94-107 | after n ≤ 10 ticks the progress is 10·n and uploading; from the 11th tick on it is 100 and stopped |
| GraphicsArea.UploadRunProperties | src/components/GraphicsArea.tsx:94-106 | progress stays in [0, 100], a multiple of 10, never decreases, reaches 100; the upload stops only after 100 is shown |
| GraphicsArea.Apply | src/components/GraphicsArea.tsx:68-116 | no input changes the project list; selecting from the list opens that project and is ignored while one is open; back clears the selection; start, offered only in a project's detail view while no upload runs (lines 110, 268-274), sets 0 and uploading, and otherwise changes nothing; a tick while idle changes nothing |
| GraphicsArea.ApplyKeepsUploadInv | src/components/GraphicsArea.tsx:271 | every input keeps the progress in [0, 100] and a multiple of 10 |
| Profile.RoleLabel | src/components/ProfileSettings.tsx:27-39 | each role key gets a non-empty caption different from the key; any other string is returned unchanged |
| Profile.RoleLabelValues | src/components/ProfileSettings.tsx:28-37 | the eight captions as written in the table |
| Profile.RoleLabelInjective | src/components/ProfileSettings.tsx:28-37 | the eight captions are pairwise distinct |
| Profile.HeadsOfSplit | src/components/ProfileSettings.tsx:54 | the first characters of the space-separated pieces are the word starts of the name |
| Profile.Initials | src/components/ProfileSettings.tsx:54 | the avatar text equals the independent word-start scan `Profile.WordStarts` of the name |
| Profile.InitialsAreWordStarts | src/components/ProfileSettings.tsx:54 | the initials are the first characters of the maximal runs of non-space characters |
| Profile.InitialsLength | src/components/ProfileSettings.tsx:54 | one initial per non-empty piece; empty pieces add nothing |
| Profile.TwoWordStarts | src/components/ProfileSettings.tsx:54 | a name of two space-free words joined by one space has exactly the first letters of the two words as its initials |
| Profile.InitialsExamples | src/components/ProfileSettings.tsx:54 | "Marco Rossi" gives "MR" and the empty name gives "" |
| Profile.CardFor | src/components/ProfileSettings.tsx:54-94 | the avatar shows the initials of the user's name, the name is shown as it is, and header and disabled role field both show `getRoleLabel` of the user's role, never the raw role key |
| EmployeeDashboard.RoleTitle | src/components/EmployeeDashboard.tsx:17-25 | the four employee roles get the same caption as on the profile page; every other string, manager keys included, is returned unchanged |
| EmployeeDashboard.RoleTitleShape | src/components/EmployeeDashboard.tsx:18-24 | titled keys are exactly the employee roles; their titles are distinct; a manager sees the raw key |
| Text.TrimStart | src/components/AssemblyArea.tsx:121 | drops exactly the leading white space |
| Text.TrimEnd | src/components/AssemblyArea.tsx:121 | drops exactly the trailing white space |
| Text.Trim | src/components/AssemblyArea.tsx:121 | the trimmed text is no longer than the input and neither starts nor ends with white space; partners `Text.TrimIsInfix` and `Text.TrimEmptyIffBlank` |
| Text.TrimIsInfix | src/components/AssemblyArea.tsx:121 | the trimmed text is a contiguous piece of the input with only white space before and after it |
| Text.TrimEmptyIffBlank | src/components/AssemblyArea.tsx:121 | the trimmed text is empty exactly when every character is white space |
| Text.Split | src/components/ProfileSettings.tsx:54 | at least one piece, none containing a space |
| Text.JoinSplit | src/components/ProfileSettings.tsx:54 | joining the pieces with spaces gives the name back |
| Text.LabelOrKey | src/components/ProfileSettings.tsx:38 | an absent key is returned unchanged; a present key with a non-empty label gives that label |
| Text.PropertyGet | src/components/ProfileSettings.tsx:38 | an own key reads its label; an absent key that Object.prototype does not carry reads undefined |
| Text.LabelOrKeyAsWritten | src/components/ProfileSettings.tsx:38 | away from Object.prototype member names it agrees with the own-key lookup |
| Text.AsWrittenLeaksPrototypeMember | src/components/ProfileSettings.tsx:38 | for "toString" the source's lookup yields the inherited function, not the key |

## Left out

- `src/components/AdminArea.tsx` and `src/components/ManagerDashboard.tsx`: static mock reports over constant data. Besides floating-point margins and percentages they compute an integer profit (`stat.revenue - stat.costs`, AdminArea.tsx:228) and, at ManagerDashboard.tsx:137, the same initials expression as ProfileSettings.tsx:54, which is modelled once, by `Profile.Initials`.
- Progress percentages (`completed / total * 100`): floating point, and NaN for an empty checklist. Only the integer counts are modelled.
- The upload timer's 200 ms period and `clearInterval`: ticks are explicit inputs, and the stopped timer is the `isUploading` flag.
- `alert` calls: no state effect.
- Rendering and styling: JSX, icons, badges, the `./ui/*` widgets, React reconciliation and strict-mode double invocation of updaters.
- Uncontrolled widgets with no handler logic: the material checkboxes of the painting view, the profile's save and password buttons, and the notification switches.
- The quick-login caption `role.replace('_', ' ')`: display only.
- Text input handlers (`setEmail`, `setPassword`, `setIssueDescription`, `setIssueUrgent`, `setShowIssueForm(true)`): plain setters. Their values are fields of the modelled states.
- Login: the browser's handling of the form fields is not modelled. This covers the required-field check and, for the `type="email"` input (LoginScreen.tsx:72-79), the stripping of leading and trailing white space and the blocking of a malformed address. The model starts at `handleSubmit`. A submit with empty fields reaches the lookup and fails it. In the running page a trailing space typed into the e-mail field is removed before the handler sees it.
- Login.SubmitIsExact: states the handler's exact comparison. The trailing-space case holds of `handleSubmit`, not of what a browser would pass it from the e-mail field.
- Profile.Initials: characters are Unicode scalar values, while JavaScript's `n[0]` reads one UTF-16 code unit. For a name piece that starts outside the Basic Multilingual Plane, the source shows a lone high surrogate and the model shows the whole character. Dafny's `char` cannot hold a lone surrogate.
- Profile.InitialsAreWordStarts: proved over Unicode scalar values rather than UTF-16 code units, for the reason given for `Profile.Initials`. The two readings agree on every name whose word starts lie in the Basic Multilingual Plane.
- Area lifetimes: the router swaps component types (App.tsx:52-73), so leaving an area unmounts it and the next visit starts again from the seed list. Each area model (`PaintingArea`, `AssemblyArea`, `DisassemblyArea`, `GraphicsArea`) covers one mounted lifetime. Painting, checklist, issue and job changes do not outlive a navigation, and nothing in the model carries them across.
- GraphicsArea upload after unmount: an upload interrupted by navigating away never reaches its `clearInterval`, because that call sits inside the progress updater (GraphicsArea.tsx:97-107), which no longer runs. The model has no timer outside the mounted area.
- The LoginScreen and ManagerSideNav local states are not part of `App.AppState`. Both components unmount on logout or login and remount fresh.

## Findings

| source | as written | input that shows it | evidently intended | confidence | as-written member | corrected member |
|---|---|---|---|---|---|---|
| src/components/ProfileSettings.tsx:38 | `labels[role] \|\| role` reads the object literal through its prototype chain. The same pattern is in DisassemblyArea.tsx:66, GraphicsArea.tsx:79, GraphicsArea.tsx:90 and EmployeeDashboard.tsx:24. | key `"toString"` (or `"constructor"`, `"valueOf"`, …) yields the inherited function rather than the key | unknown keys are returned unchanged | low: every current caller passes a value of a closed string union, so the input cannot occur today; not executed | Text.LabelOrKeyAsWritten | Text.LabelOrKey |

=== FILE: app.dfy ===
/** The application shell (App.tsx): who is logged in, which screen is
    current, which view a screen string renders, and which navigation bar
    surrounds it. */
module App {
  import opened Wrappers
  import opened Users
  import opened Nav
  import Login
  import EmployeeNav
  import ManagerNav

  /** The shell's two pieces of state: `user` (null when logged out) and
      `currentScreen`, a free-form string. */
  datatype AppState = AppState(user: Option<User>, currentScreen: string)

  /** The state the application starts in. */
  const Initial: AppState := AppState(None, "dashboard")

  /** `handleLogin`: install the user, back to the dashboard. */
  function HandleLogin(st: AppState, u: User): (r: AppState)
    ensures r.user == Some(u) && r.currentScreen == "dashboard"
  {
    AppState(Some(u), "dashboard")
  }

  /** `handleLogout`: drop the user, back to the dashboard. */
  function HandleLogout(st: AppState): (r: AppState)
    ensures r.user.None? && r.currentScreen == "dashboard"
  {
    AppState(None, "dashboard")
  }

  /** `setCurrentScreen` as passed to the menus: any string, unchecked. */
  function Navigate(st: AppState, screen: string): (r: AppState)
    ensures r.user == st.user && r.currentScreen == screen
  {
    st.(currentScreen := screen)
  }

  /** Login does not depend on what came before it. */
  lemma LoginForgetsPriorState(a: AppState, b: AppState, u: User)
    ensures HandleLogin(a, u) == HandleLogin(b, u)
  {
  }

  /** Logging out after logging in returns to the start state, whatever the
      screen was in between. */
  lemma LogoutAfterLogin(st: AppState, u: User, screen: string)
    ensures HandleLogout(Navigate(HandleLogin(st, u), screen)) == Initial
  {
  }

  /** Only the last navigation matters. */
  lemma NavigateLastWins(st: AppState, a: string, b: string)
    ensures Navigate(Navigate(st, a), b) == Navigate(st, b)
  {
  }

  /** The components the shell can show in its content area, plus the login screen. */
  datatype View =
    | LoginView | EmployeeDashboardView | ManagerDashboardView
    | PaintingView | AssemblyView | DisassemblyView | GraphicsView | AdminView | ProfileView

  /** The dashboard variant a user type gets. */
  function DashboardFor(t: UserType): View {
    if t == Manager then ManagerDashboardView else EmployeeDashboardView
  }

  /** The screen strings that have a `case` of their own besides "dashboard". */
  const RoutedScreens: set<string> := {"painting", "assembly", "disassembly", "graphics", "admin", "profile"}

  /** The screen string that selects a view; the inverse of `RenderScreen`. */
  function ScreenOf(v: View): Option<string> {
    match v
    case LoginView => None
    case EmployeeDashboardView => Some("dashboard")
    case ManagerDashboardView => Some("dashboard")
    case PaintingView => Some("painting")
    case AssemblyView => Some("assembly")
    case DisassemblyView => Some("disassembly")
    case GraphicsView => Some("graphics")
    case AdminView => Some("admin")
    case ProfileView => Some("profile")
  }

  /** `renderScreen`: total over all strings; the six routed screens select
      their own view, everything else the user type's dashboard. The role is
      never consulted. */
  function RenderScreen(screen: string, t: UserType): (v: View)
    ensures v != LoginView
    ensures screen !in RoutedScreens ==> v == DashboardFor(t)
    ensures screen in RoutedScreens ==> ScreenOf(v) == Some(screen)
  {
    match screen
    case "dashboard" => DashboardFor(t)
    case "painting" => PaintingView
    case "assembly" => AssemblyView
    case "disassembly" => DisassemblyView
    case "graphics" => GraphicsView
    case "admin" => AdminView
    case "profile" => ProfileView
    case _ => DashboardFor(t)
  }

  /** Routing the screen string of a view gives that view back, for every view
      a user of that type can be shown. */
  lemma RenderScreenRoundTrip(v: View, t: UserType)
    requires v != LoginView
    requires v in {EmployeeDashboardView, ManagerDashboardView} ==> v == DashboardFor(t)
    ensures ScreenOf(v).Some? && RenderScreen(ScreenOf(v).value, t) == v
  {
  }

  /** The "dashboard" case and the default case agree, and the menus'
      "employees" and "tasks" entries have no view of their own. */
  lemma DefaultIsDashboard(screen: string, t: UserType)
    ensures screen !in RoutedScreens ==> RenderScreen(screen, t) == RenderScreen("dashboard", t)
    ensures RenderScreen("employees", t) == DashboardFor(t) && RenderScreen("tasks", t) == DashboardFor(t)
  {
  }

  /** The navigation bar around the content. */
  datatype NavKind = SideNav | BottomNav

  /** Managers get the side bar, employees the bottom bar. */
  function NavFor(t: UserType): NavKind {
    if t == Manager then SideNav else BottomNav
  }

  /** What is on screen: the content view and, when logged in, the bar. */
  datatype Page = Page(view: View, nav: Option<NavKind>)

  /** The shell's render: the login screen alone when nobody is logged in,
      whatever the screen string; otherwise the routed view inside the bar of
      the user's type. */
  function Render(st: AppState): (p: Page)
    ensures st.user.None? <==> p.view == LoginView
    ensures st.user.None? ==> p.nav.None?
    ensures st.user.Some? ==> p.nav.Some? && (p.nav.value == SideNav <==> st.user.value.userType == Manager)
  {
    match st.user
    case None => Page(LoginView, None)
    case Some(u) => Page(RenderScreen(st.currentScreen, u.userType), Some(NavFor(u.userType)))
  }

  /** The page depends on the user's type and nothing else about the user:
      not the role, the name, the e-mail or the id. */
  lemma RenderIgnoresRole(a: User, b: User, screen: string)
    requires a.userType == b.userType
    ensures Render(AppState(Some(a), screen)) == Render(AppState(Some(b), screen))
  {
  }

  /** There is no authorisation in the router: an employee whose screen is
      "admin" is shown the administration view. */
  lemma RouterHasNoAuthorisation(u: User)
    requires u.userType == Employee
    ensures Render(AppState(Some(u), "admin")).view == AdminView
  {
  }

  /** The menu of the bar the user sees. */
  function Menu(u: User): (items: seq<NavItem>)
    ensures |items| > 0 && items[0].id == "dashboard" && DistinctIds(items)
  {
    if u.userType == Manager then ManagerNav.MenuFor(u) else EmployeeNav.NavItems(u.role)
  }

  /** After login the user sees the dashboard of their type inside the bar of
      their type. */
  lemma LoginShowsDashboard(st: AppState, u: User)
    ensures Render(HandleLogin(st, u)) == Page(DashboardFor(u.userType), Some(NavFor(u.userType)))
  {
  }

  /** After logout only the login screen is shown, from any state. */
  lemma LogoutShowsLoginScreen(st: AppState)
    ensures HandleLogout(st) == Initial
    ensures Render(HandleLogout(st)) == Page(LoginView, None)
  {
  }

  /** A logged-in user who navigates sees whatever the router makes of the
      string, with the same bar as before. */
  lemma NavigateShowsRoutedView(st: AppState, screen: string)
    requires st.user.Some?
    ensures Render(Navigate(st, screen)).view == RenderScreen(screen, st.user.value.userType)
    ensures Render(Navigate(st, screen)).nav == Render(st).nav
  {
  }

  /** The user inputs the shell reacts to: a form submit or a quick-login
      button on the login screen, a menu entry, or the profile page's logout
      button. Random ids are parameters. */
  datatype Event =
    | SubmitLogin(email: string, password: string, freshId: string)
    | QuickLogin(row: nat, freshId: string)
    | NavClick(item: nat)
    | LogoutClick

  /** Whether the control the event stands for is on screen. */
  predicate Enabled(st: AppState, e: Event) {
    match e
    case SubmitLogin(_, _, _) => st.user.None?
    case QuickLogin(row, _) => st.user.None? && row < |Login.DemoUsers|
    case NavClick(k) => st.user.Some? && k < |Menu(st.user.value)|
    case LogoutClick => Render(st).view == ProfileView
  }

  /** One user input; an input whose control is not on screen changes nothing. */
  function Step(st: AppState, e: Event): (r: AppState)
    ensures !Enabled(st, e) ==> r == st
    ensures e.SubmitLogin? && Enabled(st, e) ==>
              (r.user.Some? <==> exists i :: 0 <= i < |Login.DemoUsers| && Login.Matches(Login.DemoUsers[i], e.email, e.password))
    ensures e.SubmitLogin? && Enabled(st, e) && r.user.Some? ==>
              r.currentScreen == "dashboard"
              && exists i :: 0 <= i < |Login.DemoUsers| && Login.Matches(Login.DemoUsers[i], e.email, e.password)
                             && r.user.value == Login.UserFor(Login.DemoUsers[i], e.freshId)
    ensures e.SubmitLogin? && Enabled(st, e) && r.user.None? ==> r == st
    ensures e.QuickLogin? && Enabled(st, e) ==>
              r.currentScreen == "dashboard" && r.user == Some(Login.UserFor(Login.DemoUsers[e.row], e.freshId))
    ensures e.NavClick? && Enabled(st, e) ==> r.user == st.user && r.currentScreen == Menu(st.user.value)[e.item].id
    ensures e.LogoutClick? && Enabled(st, e) ==> r == Initial
  {
    if !Enabled(st, e) then st
    else match e
      case SubmitLogin(email, password, freshId) =>
        var outcome := Login.Submit(Login.LoginForm(email, password, ""), freshId);
        if outcome.loggedIn.Some? then HandleLogin(st, outcome.loggedIn.value) else st
      case QuickLogin(row, freshId) => HandleLogin(st, Login.QuickLogin(Login.DemoUsers[row], freshId))
      case NavClick(k) => Navigate(st, Menu(st.user.value)[k].id)
      case LogoutClick => HandleLogout(st)
  }

  /** What holds in every state the application can reach: logged out means
      the dashboard screen; logged in means a user whose type matches the role
      and a current screen taken from that user's own menu. */
  predicate Inv(st: AppState) {
    match st.user
    case None => st.currentScreen == "dashboard"
    case Some(u) => u.userType == ExpectedType(u.role) && st.currentScreen in Ids(Menu(u))
  }

  /** The start state satisfies the invariant and every input preserves it. */
  lemma StepPreservesInv(st: AppState, e: Event)
    requires Inv(st)
    ensures Inv(Initial)
    ensures Inv(Step(st, e))
  {
    Login.DemoTableRoles();
  }

  /** The logout button exists only on the profile page, and pressing it
      returns to the start state. */
  lemma LogoutOnlyFromProfile(st: AppState)
    ensures Enabled(st, LogoutClick) <==> st.user.Some? && RenderScreen(st.currentScreen, st.user.value.userType) == ProfileView
    ensures Enabled(st, LogoutClick) ==> Step(st, LogoutClick) == Initial
    ensures !Enabled(st, LogoutClick) ==> Step(st, LogoutClick) == st
  {
  }

  /** The state after a sequence of inputs from the start. */
  function Run(events: seq<Event>): AppState
    decreases |events|
  {
    if |events| == 0 then Initial else Step(Run(events[..|events| - 1]), events[|events| - 1])
  }

  /** The invariant holds after any sequence of inputs. */
  lemma {:induction false} RunInv(events: seq<Event>)
    ensures Inv(Run(events))
  {
    if |events| == 0 {
      StepPreservesInv(Initial, LogoutClick);
    } else {
      RunInv(events[..|events| - 1]);
      StepPreservesInv(Run(events[..|events| - 1]), events[|events| - 1]);
    }
  }

  /** Although the router would show it, no sequence of inputs brings an
      employee to the administration view: the only screens an employee can
      reach are those of the employee's own bottom bar. */
  lemma {:induction false} EmployeeNeverReachesAdmin(events: seq<Event>)
    requires Run(events).user.Some? && Run(events).user.value.userType == Employee
    ensures Render(Run(events)).view != AdminView
  {
    RunInv(events);
  }
}

=== FILE: assembly.dfy ===
/** The assembly area (AssemblyArea.tsx): bikes with a checklist of tasks
    to tick off and a list of reported issues. */
module AssemblyArea {
  import opened Wrappers
  import opened Text

  /** One checklist entry. */
  datatype ChecklistItem = ChecklistItem(id: string, task: string, completed: bool)

  /** One reported problem. */
  datatype Issue = Issue(id: string, description: string, urgent: bool)

  /** Which parts are in stock (display only). */
  datatype Components = Components(frame: bool, wheels: bool, battery: bool, motor: bool,
                                   display: bool, accessories: bool)

  datatype Priority = High | Medium | Low

  /** A bike on the assembly bench. */
  datatype AssemblyBike = AssemblyBike(id: string, model: string, customer: string, priority: Priority,
                                       components: Components, checklist: seq<ChecklistItem>,
                                       issues: seq<Issue>)

  /** The inner `checklist.map`: every entry whose id is `taskId` is flipped,
      keeping its id and text; the others are untouched. */
  function ToggleItems(items: seq<ChecklistItem>, taskId: string): (r: seq<ChecklistItem>)
    ensures |r| == |items|
    ensures forall k :: 0 <= k < |items| ==> r[k].id == items[k].id && r[k].task == items[k].task
    ensures forall k :: 0 <= k < |items| ==> r[k].completed == (items[k].completed != (items[k].id == taskId))
  {
    seq(|items|, k requires 0 <= k < |items| =>
      if items[k].id == taskId then items[k].(completed := !items[k].completed) else items[k])
  }

  /** A bike with its checklist toggled; issues, components and the rest untouched. */
  function ToggleBikeItem(b: AssemblyBike, taskId: string): (r: AssemblyBike)
    ensures r.(checklist := b.checklist) == b
    ensures r.checklist == ToggleItems(b.checklist, taskId)
  {
    b.(checklist := ToggleItems(b.checklist, taskId))
  }

  /** The `setBikes` update of `handleToggleChecklist`. */
  function ToggleChecklist(bikes: seq<AssemblyBike>, bikeId: string, taskId: string): (r: seq<AssemblyBike>)
    ensures |r| == |bikes|
    ensures forall i :: 0 <= i < |bikes| && bikes[i].id != bikeId ==> r[i] == bikes[i]
    ensures forall i :: 0 <= i < |bikes| && bikes[i].id == bikeId ==> r[i] == ToggleBikeItem(bikes[i], taskId)
  {
    seq(|bikes|, i requires 0 <= i < |bikes| =>
      if bikes[i].id == bikeId then ToggleBikeItem(bikes[i], taskId) else bikes[i])
  }

  /** Ticking the same box twice is the identity. */
  lemma ToggleChecklistTwice(bikes: seq<AssemblyBike>, bikeId: string, taskId: string)
    ensures ToggleChecklist(ToggleChecklist(bikes, bikeId, taskId), bikeId, taskId) == bikes
  {
    var mid := ToggleChecklist(bikes, bikeId, taskId);
    var r := ToggleChecklist(mid, bikeId, taskId);
    forall i | 0 <= i < |bikes|
      ensures r[i] == bikes[i]
    {
      if bikes[i].id == bikeId {
        var items := bikes[i].checklist;
        var twice := ToggleItems(ToggleItems(items, taskId), taskId);
        assert forall k :: 0 <= k < |items| ==> twice[k] == items[k];
        assert twice == items;
      }
    }
  }

  /** `checklist.filter(t => t.completed).length`. */
  function CompletedTasks(items: seq<ChecklistItem>): (k: nat)
    ensures k <= |items|
  {
    if |items| == 0 then 0
    else (if items[0].completed then 1 else 0) + CompletedTasks(items[1..])
  }

  /** Every task is done exactly when the count reaches the checklist length. */
  lemma {:induction false} AllDoneIffFullCount(items: seq<ChecklistItem>)
    ensures CompletedTasks(items) == |items| <==> forall k :: 0 <= k < |items| ==> items[k].completed
  {
    if |items| > 0 {
      AllDoneIffFullCount(items[1..]);
      assert forall k :: 1 <= k < |items| ==> items[k] == items[1..][k - 1];
    }
  }

  /** The component's state: the list, the detail view's copy of the selected
      bike, and the issue form. */
  datatype AssemblyState = AssemblyState(bikes: seq<AssemblyBike>, selected: Option<AssemblyBike>,
                                         showIssueForm: bool, issueDescription: string, issueUrgent: bool)

  /** `handleToggleChecklist`: the list update, then the same update on the
      selected copy when its id matches. */
  function HandleToggleChecklist(st: AssemblyState, bikeId: string, taskId: string): (r: AssemblyState)
    ensures r.bikes == ToggleChecklist(st.bikes, bikeId, taskId)
    ensures st.selected.Some? && st.selected.value.id == bikeId ==> r.selected == Some(ToggleBikeItem(st.selected.value, taskId))
    ensures st.selected.None? || st.selected.value.id != bikeId ==> r.selected == st.selected
    ensures (r.showIssueForm, r.issueDescription, r.issueUrgent) == (st.showIssueForm, st.issueDescription, st.issueUrgent)
  {
    var bikes := ToggleChecklist(st.bikes, bikeId, taskId);
    match st.selected
    case Some(s) => if s.id == bikeId then st.(bikes := bikes, selected := Some(ToggleBikeItem(s, taskId))) else st.(bikes := bikes)
    case None => st.(bikes := bikes)
  }

  /** The guard `!issueDescription.trim()`. */
  function TrimsToNothing(s: string): (b: bool)
    ensures b <==> Blank(s)
  {
    TrimEmptyIffBlank(s);
    Trim(s) == ""
  }

  /** `handleReportIssue`, with `issueId` for `Date.now().toString()`. Nothing
      happens without a selection or with a description that trims to nothing;
      otherwise the issue, with the untrimmed text and the urgent flag, is
      appended to the selected bike in the list and in the copy, and the form
      is reset and hidden. */
  function HandleReportIssue(st: AssemblyState, issueId: string): (r: AssemblyState)
    ensures st.selected.None? || Blank(st.issueDescription) ==> r == st
    ensures st.selected.Some? && !Blank(st.issueDescription) ==>
      var issue := Issue(issueId, st.issueDescription, st.issueUrgent);
      && |r.bikes| == |st.bikes|
      && (forall i :: 0 <= i < |st.bikes| && st.bikes[i].id != st.selected.value.id ==> r.bikes[i] == st.bikes[i])
      && (forall i :: 0 <= i < |st.bikes| && st.bikes[i].id == st.selected.value.id ==>
            r.bikes[i] == st.bikes[i].(issues := st.bikes[i].issues + [issue]))
      && r.selected == Some(st.selected.value.(issues := st.selected.value.issues + [issue]))
      && r.issueDescription == "" && !r.issueUrgent && !r.showIssueForm
  {
    if st.selected.None? || TrimsToNothing(st.issueDescription) then st
    else
      var sel := st.selected.value;
      var issue := Issue(issueId, st.issueDescription, st.issueUrgent);
      var bikes := seq(|st.bikes|, i requires 0 <= i < |st.bikes| =>
        if st.bikes[i].id == sel.id then st.bikes[i].(issues := st.bikes[i].issues + [issue]) else st.bikes[i]);
      AssemblyState(bikes, Some(sel.(issues := sel.issues + [issue])), false, "", false)
  }

  /** A successful report adds exactly one issue to the selected bike's list
      entry, at the end, with the urgent flag as entered. */
  lemma ReportAddsOneIssue(st: AssemblyState, issueId: string, i: nat)
    requires st.selected.Some? && !Blank(st.issueDescription)
    requires i < |st.bikes| && st.bikes[i].id == st.selected.value.id
    ensures var r := HandleReportIssue(st, issueId);
            |r.bikes[i].issues| == |st.bikes[i].issues| + 1 &&
            r.bikes[i].issues[..|st.bikes[i].issues|] == st.bikes[i].issues &&
            r.bikes[i].issues[|st.bikes[i].issues|].urgent == st.issueUrgent
  {
  }

  /** A description of spaces, tabs and line breaks is refused. */
  lemma WhitespaceReportIgnored(st: AssemblyState, issueId: string)
    ensures Blank(st.issueDescription) ==> HandleReportIssue(st, issueId) == st
    ensures st.issueDescription == " \t\n " ==> HandleReportIssue(st, issueId) == st
  {
  }

  /** The Cancel button of the issue form. */
  function CancelIssue(st: AssemblyState): (r: AssemblyState)
    ensures r.bikes == st.bikes && r.selected == st.selected
    ensures !r.showIssueForm && r.issueDescription == "" && !r.issueUrgent
  {
    st.(showIssueForm := false, issueDescription := "", issueUrgent := false)
  }

  /** The selected copy, if any, equals the list entry with the same id. */
  predicate InSync(st: AssemblyState) {
    st.selected.Some? ==> exists i :: 0 <= i < |st.bikes| && st.bikes[i] == st.selected.value
  }

  /** Both handlers write the list and the copy in step, so a copy taken from
      the list stays equal to its list entry. */
  lemma HandlersKeepSync(st: AssemblyState, bikeId: string, taskId: string, issueId: string)
    requires InSync(st)
    ensures InSync(HandleToggleChecklist(st, bikeId, taskId))
    ensures InSync(HandleReportIssue(st, issueId))
    ensures InSync(CancelIssue(st))
  {
    if st.selected.Some? {
      var i :| 0 <= i < |st.bikes| && st.bikes[i] == st.selected.value;
      assert HandleToggleChecklist(st, bikeId, taskId).bikes[i] == HandleToggleChecklist(st, bikeId, taskId).selected.value;
      if !Blank(st.issueDescription) {
        assert HandleReportIssue(st, issueId).bikes[i] == HandleReportIssue(st, issueId).selected.value;
      }
    }
  }
}

=== FILE: disassembly.dfy ===
/** The disassembly area (DisassemblyArea.tsx): service jobs that a mechanic
    closes with notes and a list of defects found. */
module DisassemblyArea {
  import opened Wrappers
  import opened Text

  datatype JobType = Replacement | Revision | Disassembly

  /** The three statuses; only `completed` is ever written. */
  datatype JobStatus = Pending | InProgress | Completed

  /** A service job. The two note fields are absent until the job is closed. */
  datatype Job = Job(id: string, jobType: JobType, bikeModel: string, customer: string, description: string,
                     notes: string, partsNeeded: seq<string>, status: JobStatus,
                     mechanicNotes: Option<string>, defectsFound: Option<string>)

  /** The string spelling of each job type. */
  function JobTypeKey(t: JobType): string {
    match t
    case Replacement => "replacement"
    case Revision => "revision"
    case Disassembly => "disassembly"
  }

  /** The caption table of `getTypeLabel`. */
  const TypeLabels: LabelTable := map[
    "replacement" := "Sostituzione",
    "revision" := "Revisione",
    "disassembly" := "Smontaggio"
  ]

  /** `getTypeLabel`: a caption for the three job types, any other string as it is. */
  function TypeLabel(key: string): (r: string)
    ensures key in TypeLabels ==> r == TypeLabels[key] && r != key
    ensures key !in TypeLabels ==> r == key
  {
    LabelOrKey(TypeLabels, key)
  }

  /** Each job type gets its own caption. */
  lemma TypeLabelValues(a: JobType, b: JobType)
    ensures TypeLabel(JobTypeKey(Replacement)) == "Sostituzione"
    ensures TypeLabel(JobTypeKey(Revision)) == "Revisione"
    ensures TypeLabel(JobTypeKey(Disassembly)) == "Smontaggio"
    ensures TypeLabel(JobTypeKey(a)) == TypeLabel(JobTypeKey(b)) <==> a == b
  {
  }

  /** The component's state: the list, the selected copy, and the two text boxes. */
  datatype DisassemblyState = DisassemblyState(jobs: seq<Job>, selected: Option<Job>,
                                               mechanicNotes: string, defectsFound: string)

  /** `handleCompleteJob`. With nothing selected nothing happens. Otherwise
      every list entry with the selected id becomes `completed` and records the
      two texts, everything else in the list is untouched, and the selection and
      both text boxes are cleared. */
  function HandleCompleteJob(st: DisassemblyState): (r: DisassemblyState)
    ensures st.selected.None? ==> r == st
    ensures st.selected.Some? ==>
      && |r.jobs| == |st.jobs|
      && (forall i :: 0 <= i < |st.jobs| && st.jobs[i].id != st.selected.value.id ==> r.jobs[i] == st.jobs[i])
      && (forall i :: 0 <= i < |st.jobs| && st.jobs[i].id == st.selected.value.id ==>
            r.jobs[i] == st.jobs[i].(status := Completed, mechanicNotes := Some(st.mechanicNotes),
                                    defectsFound := Some(st.defectsFound)))
      && r.selected.None? && r.mechanicNotes == "" && r.defectsFound == ""
  {
    match st.selected
    case None => st
    case Some(sel) =>
      var jobs := seq(|st.jobs|, i requires 0 <= i < |st.jobs| =>
        if st.jobs[i].id == sel.id
        then st.jobs[i].(status := Completed, mechanicNotes := Some(st.mechanicNotes), defectsFound := Some(st.defectsFound))
        else st.jobs[i]);
      DisassemblyState(jobs, None, "", "")
  }

  /** The inputs of the area: open a job from the list, the back arrow, typing
      in either text box, and the complete button. */
  datatype Event = SelectJob(index: nat) | BackToList | EditNotes(text: string) | EditDefects(text: string) | CompleteJob

  /** Whether the control is on screen and enabled: the complete button is
      disabled once the selected copy says `completed`. */
  function Enabled(st: DisassemblyState, e: Event): (r: bool)
    ensures r ==> (e.SelectJob? <==> st.selected.None?)
    ensures e.CompleteJob? && st.selected.Some? && st.selected.value.status == Completed ==> !r
  {
    match e
    case SelectJob(i) => st.selected.None? && i < |st.jobs|
    case BackToList => st.selected.Some?
    case EditNotes(_) => st.selected.Some?
    case EditDefects(_) => st.selected.Some?
    case CompleteJob => st.selected.Some? && st.selected.value.status != Completed
  }

  /** One handler run, whether or not the UI would offer the control. */
  function Apply(st: DisassemblyState, e: Event): (r: DisassemblyState)
    ensures |r.jobs| == |st.jobs|
    ensures forall i :: 0 <= i < |st.jobs| ==> r.jobs[i].id == st.jobs[i].id
    ensures !e.CompleteJob? ==> r.jobs == st.jobs
  {
    match e
    case SelectJob(i) => if i < |st.jobs| then st.(selected := Some(st.jobs[i])) else st
    case BackToList => st.(selected := None)
    case EditNotes(text) => st.(mechanicNotes := text)
    case EditDefects(text) => st.(defectsFound := text)
    case CompleteJob => HandleCompleteJob(st)
  }

  /** `completed` is absorbing: no handler, enabled or not, moves a job out of it. */
  lemma CompletedIsAbsorbing(st: DisassemblyState, e: Event, i: nat)
    requires i < |st.jobs| && st.jobs[i].status == Completed
    ensures Apply(st, e).jobs[i].status == Completed
  {
  }

  /** The selected copy, if any, equals the list entry with the same id. */
  predicate InSync(st: DisassemblyState) {
    st.selected.Some? ==> exists i :: 0 <= i < |st.jobs| && st.jobs[i] == st.selected.value
  }

  /** Job ids are unique within the list. */
  predicate UniqueIds(jobs: seq<Job>) {
    forall i, j :: 0 <= i < j < |jobs| ==> jobs[i].id != jobs[j].id
  }

  /** Through the enabled controls only, the copy stays equal to its list entry
      and a completed job's notes and defects never change again: the disabled
      button is the only thing that protects them, since the handler itself
      would overwrite them. */
  lemma EnabledStepsFreezeCompletedJobs(st: DisassemblyState, e: Event, i: nat)
    requires UniqueIds(st.jobs) && InSync(st) && Enabled(st, e)
    requires i < |st.jobs| && st.jobs[i].status == Completed
    ensures InSync(Apply(st, e)) && UniqueIds(Apply(st, e).jobs)
    ensures Apply(st, e).jobs[i] == st.jobs[i]
  {
    if e.CompleteJob? {
      var k :| 0 <= k < |st.jobs| && st.jobs[k] == st.selected.value;
      assert k != i;
    }
  }

  /** Without the button's guard, completing a completed job again replaces its notes. */
  lemma HandlerHasNoGuard(j: Job, notes: string, defects: string)
    requires j.status == Completed && j.mechanicNotes != Some(notes)
    ensures HandleCompleteJob(DisassemblyState([j], Some(j), notes, defects)).jobs[0].mechanicNotes == Some(notes)
    ensures HandleCompleteJob(DisassemblyState([j], Some(j), notes, defects)).jobs[0] != j
  {
  }
}

=== FILE: employee_dashboard.dfy ===
/** The employee home page's title (EmployeeDashboard.tsx). */
module EmployeeDashboard {
  import opened Users
  import opened Text
  import Profile

  /** The title table of `getRoleTitle`: the four shop-floor roles only. */
  const RoleTitles: LabelTable := map[
    "painter" := "Verniciatore",
    "assembly_tech" := "Meccanico Montaggio",
    "disassembly_tech" := "Meccanico Smontaggio",
    "graphics_tech" := "Area Grafica & Stampa"
  ]

  /** `getRoleTitle`: each employee role gets the caption the profile page
      shows for it; every other string, the four manager keys included, is
      shown as it is. */
  function RoleTitle(key: string): (r: string)
    ensures key in RoleTitles ==> r == Profile.RoleLabel(key) && r != key
    ensures key !in RoleTitles ==> r == key
  {
    LabelOrKey(RoleTitles, key)
  }

  /** The titled keys are exactly the four employee roles; their titles are
      distinct, and a manager sees the raw key. */
  lemma RoleTitleShape(a: Role, b: Role)
    ensures RoleKey(a) in RoleTitles <==> IsEmployeeRole(a)
    ensures IsEmployeeRole(a) && IsEmployeeRole(b) ==> (RoleTitle(RoleKey(a)) == RoleTitle(RoleKey(b)) <==> a == b)
    ensures !IsEmployeeRole(a) ==> RoleTitle(RoleKey(a)) == RoleKey(a)
  {
    Profile.RoleLabelInjective(a, b);
  }
}

=== FILE: employee_nav.dfy ===
/** The bottom bar employees see (EmployeeBottomNav.tsx): Home, at most one
    work-area entry chosen by role, and Profile. */
module EmployeeNav {
  import opened Wrappers
  import opened Users
  import opened Nav

  /** The work-area entry the role's `switch` pushes, if any. */
  function AreaItem(r: Role): Option<NavItem> {
    match r
    case Painter => Some(NavItem("painting", "Verniciatura"))
    case AssemblyTech => Some(NavItem("assembly", "Montaggio"))
    case DisassemblyTech => Some(NavItem("disassembly", "Smontaggio"))
    case GraphicsTech => Some(NavItem("graphics", "Grafica"))
    case _ => None
  }

  /** `getNavItems`. */
  function NavItems(r: Role): (items: seq<NavItem>)
    ensures |items| == (if IsEmployeeRole(r) then 3 else 2)
    ensures items[0].id == "dashboard" && items[|items| - 1].id == "profile"
    ensures DistinctIds(items)
  {
    var home := NavItem("dashboard", "Home");
    var profile := NavItem("profile", "Profilo");
    match AreaItem(r)
    case Some(area) => [home, area, profile]
    case None => [home, profile]
  }

  /** The middle entry of each employee role's menu, and the two-entry menu of
      every other role. */
  lemma NavItemsByRole(r: Role)
    ensures r == Painter ==> Ids(NavItems(r)) == ["dashboard", "painting", "profile"]
    ensures r == AssemblyTech ==> Ids(NavItems(r)) == ["dashboard", "assembly", "profile"]
    ensures r == DisassemblyTech ==> Ids(NavItems(r)) == ["dashboard", "disassembly", "profile"]
    ensures r == GraphicsTech ==> Ids(NavItems(r)) == ["dashboard", "graphics", "profile"]
    ensures !IsEmployeeRole(r) ==> Ids(NavItems(r)) == ["dashboard", "profile"]
  {
  }

  /** At most one entry of the bar is highlighted, and exactly one when the
      current screen is in the bar. */
  lemma AtMostOneActive(r: Role, currentScreen: string)
    ensures ActiveCount(NavItems(r), currentScreen) <= 1
    ensures ActiveCount(NavItems(r), currentScreen) == 1 <==> currentScreen in Ids(NavItems(r))
  {
    ActiveCountOfDistinct(NavItems(r), currentScreen);
  }

  /** The screen the `onClick` of entry `k` hands to `onNavigate`. */
  function Click(r: Role, k: nat): (screen: string)
    requires k < |NavItems(r)|
    ensures screen in Ids(NavItems(r))
    ensures IsActive(NavItems(r)[k], screen)
    ensures ActiveCount(NavItems(r), screen) == 1
  {
    ActiveCountOfDistinct(NavItems(r), NavItems(r)[k].id);
    NavItems(r)[k].id
  }
}

=== FILE: graphics.dfy ===
/** The graphics and print area (GraphicsArea.tsx): read-only projects with
    captions, and a simulated file upload driven by a timer. */
module GraphicsArea {
  import opened Wrappers
  import opened Text

  datatype ProjectType = Logo | Render | Print | Design

  datatype ProjectStatus = Draft | InProgress | Printing | Completed | Error

  datatype Priority = High | Medium | Low

  /** A graphics project. */
  datatype Project = Project(id: string, title: string, customer: string, projectType: ProjectType,
                             description: string, files: seq<string>, guidelines: string,
                             status: ProjectStatus, priority: Priority, notes: Option<string>)

  /** The string spelling of each project type. */
  function TypeKey(t: ProjectType): string {
    match t
    case Logo => "logo"
    case Render => "render"
    case Print => "print"
    case Design => "design"
  }

  /** The string spelling of each status. */
  function StatusKey(s: ProjectStatus): string {
    match s
    case Draft => "draft"
    case InProgress => "in_progress"
    case Printing => "printing"
    case Completed => "completed"
    case Error => "error"
  }

  /** The caption table of `getTypeLabel`. */
  const TypeLabels: LabelTable := map[
    "logo" := "Logo",
    "render" := "Render 3D",
    "print" := "Stampa",
    "design" := "Design"
  ]

  /** The caption table of `getStatusLabel`. */
  const StatusLabels: LabelTable := map[
    "draft" := "Bozza",
    "in_progress" := "In Lavorazione",
    "printing" := "In Stampa",
    "completed" := "Completato",
    "error" := "Errore"
  ]

  /** `getTypeLabel`: a caption for the four types, any other string as it is. */
  function TypeLabel(key: string): (r: string)
    ensures key in TypeLabels ==> r == TypeLabels[key] && r != ""
    ensures key !in TypeLabels ==> r == key
  {
    LabelOrKey(TypeLabels, key)
  }

  /** `getStatusLabel`: a caption for the five statuses, any other string as it is. */
  function StatusLabel(key: string): (r: string)
    ensures key in StatusLabels ==> r == StatusLabels[key] && r != key
    ensures key !in StatusLabels ==> r == key
  {
    LabelOrKey(StatusLabels, key)
  }

  /** Helper for `LabelsCoverTheEnumerations`: the type captions. */
  lemma TypeCaptions(a: ProjectType, b: ProjectType)
    ensures TypeKey(a) in TypeLabels
    ensures TypeLabel(TypeKey(a)) == TypeLabel(TypeKey(b)) <==> a == b
  {
  }

  /** Helper for `LabelsCoverTheEnumerations`: the status captions. */
  lemma StatusCaptions(s: ProjectStatus, t: ProjectStatus)
    ensures StatusKey(s) in StatusLabels
    ensures StatusLabel(StatusKey(s)) == StatusLabel(StatusKey(t)) <==> s == t
  {
  }

  /** Every type and every status has a caption, and distinct ones get distinct captions. */
  lemma LabelsCoverTheEnumerations(a: ProjectType, b: ProjectType, s: ProjectStatus, t: ProjectStatus)
    ensures TypeKey(a) in TypeLabels && StatusKey(s) in StatusLabels
    ensures TypeLabel(TypeKey(a)) == TypeLabel(TypeKey(b)) <==> a == b
    ensures StatusLabel(StatusKey(s)) == StatusLabel(StatusKey(t)) <==> s == t
  {
    TypeCaptions(a, b);
    StatusCaptions(s, t);
  }

  /** The upload widget: the percentage shown and whether the timer runs. */
  datatype Upload = Upload(progress: int, isUploading: bool)

  /** The first two statements of `handleSimulateUpload`. */
  const Started: Upload := Upload(0, true)

  /** The start button exists only in a project's detail view and is disabled
      while an upload runs. */
  predicate StartEnabled(st: GraphicsState) {
    st.selected.Some? && !st.upload.isUploading
  }

  /** One timer tick: the `setUploadProgress` updater together with the
      `setIsUploading(false)` it performs. At 100 or more it stops the timer and
      pins the value at 100; below that it adds 10. */
  function Tick(u: Upload): (r: Upload)
    ensures u.progress >= 100 ==> r == Upload(100, false)
    ensures u.progress < 100 ==> r.progress == u.progress + 10 && r.isUploading == u.isUploading
  {
    if u.progress >= 100 then Upload(100, false) else u.(progress := u.progress + 10)
  }

  /** The widget after `n` ticks of the timer started by the button. Ticks
      only arrive while the timer runs, so a stopped widget stays as it is. */
  function AfterTicks(n: nat): (r: Upload)
    ensures 0 <= r.progress <= 100 && r.progress % 10 == 0
    ensures !r.isUploading ==> r.progress == 100
  {
    if n == 0 then Started
    else
      var prev := AfterTicks(n - 1);
      if prev.isUploading then Tick(prev) else prev
  }

  /** The closed form of a run: 10 per tick up to 100 after ten ticks, the
      timer stopping on the eleventh, which finds 100 already reached. */
  lemma {:induction false} AfterTicksClosedForm(n: nat)
    ensures n <= 10 ==> AfterTicks(n) == Upload(10 * n, true)
    ensures n >= 11 ==> AfterTicks(n) == Upload(100, false)
  {
    if n > 0 {
      AfterTicksClosedForm(n - 1);
    }
  }

  /** Along a run the percentage stays in [0, 100], is a multiple of 10,
      never decreases, and reaches 100; the timer stops only once 100 has
      been shown. */
  lemma UploadRunProperties(n: nat)
    ensures 0 <= AfterTicks(n).progress <= 100 && AfterTicks(n).progress % 10 == 0
    ensures AfterTicks(n).progress <= AfterTicks(n + 1).progress
    ensures AfterTicks(10).progress == 100
    ensures !AfterTicks(n).isUploading ==> AfterTicks(n).progress == 100 && n >= 11
  {
    AfterTicksClosedForm(n);
    AfterTicksClosedForm(n + 1);
    AfterTicksClosedForm(10);
  }

  /** The area's state. The project list has no setter anywhere in the source. */
  datatype GraphicsState = GraphicsState(projects: seq<Project>, selected: Option<Project>, upload: Upload)

  /** The inputs of the area. */
  datatype Event = SelectProject(index: nat) | BackToList | StartUpload | TimerTick

  /** One input. Selecting is offered only from the list, the start button only
      in the detail view while no upload runs, and ticks arrive only while the timer runs. */
  function Apply(st: GraphicsState, e: Event): (r: GraphicsState)
    ensures r.projects == st.projects
    ensures e.StartUpload? && StartEnabled(st) ==> r.upload == Started
    ensures e.StartUpload? && !StartEnabled(st) ==> r == st
    ensures e.TimerTick? && !st.upload.isUploading ==> r == st
    ensures e.BackToList? ==> r.selected.None?
    ensures e.SelectProject? ==> r.selected == (if st.selected.None? && e.index < |st.projects| then Some(st.projects[e.index]) else st.selected)
    ensures e.TimerTick? && st.upload.isUploading ==> r.upload == Tick(st.upload)
    ensures !e.StartUpload? && !e.TimerTick? ==> r.upload == st.upload
  {
    match e
    case SelectProject(i) =>
      if st.selected.None? && i < |st.projects| then st.(selected := Some(st.projects[i])) else st
    case BackToList => st.(selected := None)
    case StartUpload => if StartEnabled(st) then st.(upload := Started) else st
    case TimerTick => if st.upload.isUploading then st.(upload := Tick(st.upload)) else st
  }

  /** The upload stays within [0, 100] and a multiple of 10 whatever the inputs. */
  predicate UploadInv(u: Upload) {
    0 <= u.progress <= 100 && u.progress % 10 == 0
  }

  /** Every input keeps the upload invariant (the widget mounts at 0, idle). */
  lemma ApplyKeepsUploadInv(st: GraphicsState, e: Event)
    requires UploadInv(st.upload)
    ensures UploadInv(Upload(0, false))
    ensures UploadInv(Apply(st, e).upload)
  {
  }
}

=== FILE: login.dfy ===
/** The login screen (LoginScreen.tsx): a fixed table of demo accounts, a
    credential check that is a first-match search over it, and one-click
    logins that skip the password. */
module Login {
  import opened Wrappers
  import opened Users

  /** One row of the demo account table. */
  datatype DemoUser = DemoUser(email: string, password: string, name: string, role: Role, userType: UserType)

  /** The demo accounts, in display order. */
  const DemoUsers: seq<DemoUser> := [
    DemoUser("painter@epower.it", "demo", "Marco Rossi", Painter, Employee),
    DemoUser("assembly@epower.it", "demo", "Luca Bianchi", AssemblyTech, Employee),
    DemoUser("disassembly@epower.it", "demo", "Giovanni Verdi", DisassemblyTech, Employee),
    DemoUser("graphics@epower.it", "demo", "Sofia Ferrari", GraphicsTech, Employee),
    DemoUser("manager@epower.it", "demo", "Alessandro Costa", ProductionManager, Manager),
    DemoUser("admin@epower.it", "demo", "Maria Colombo", AdminAccounting, Manager)
  ]

  /** The message shown after a failed submit. */
  const InvalidCredentials: string := "Credenziali non valide"

  /** The form's state: the two inputs and the error line. */
  datatype LoginForm = LoginForm(email: string, password: string, error: string)

  /** Exact, case-sensitive equality on both fields: no trimming, no folding. */
  predicate Matches(u: DemoUser, email: string, password: string) {
    u.email == email && u.password == password
  }

  /** `DEMO_USERS.find(...)`, as the index of the first matching row. */
  function FindDemoUser(table: seq<DemoUser>, email: string, password: string): (r: Option<nat>)
    ensures r.Some? ==> r.value < |table| && Matches(table[r.value], email, password)
    ensures r.Some? ==> forall j :: 0 <= j < r.value ==> !Matches(table[j], email, password)
    ensures r.None? <==> forall j :: 0 <= j < |table| ==> !Matches(table[j], email, password)
  {
    if |table| == 0 then None
    else if Matches(table[0], email, password) then Some(0)
    else
      match FindDemoUser(table[1..], email, password)
      case Some(i) => Some(i + 1)
      case None => None
  }

  /** The User handed to `onLogin` for a table row; `freshId` stands for the
      random identifier the source draws. */
  function UserFor(u: DemoUser, freshId: string): (r: User)
    ensures r.id == freshId
    ensures (r.name, r.email, r.role, r.userType) == (u.name, u.email, u.role, u.userType)
  {
    User(freshId, u.name, u.email, u.role, u.userType)
  }

  /** What one submit produces: the next form state and, on success, the user
      passed to `onLogin`. */
  datatype SubmitOutcome = SubmitOutcome(form: LoginForm, loggedIn: Option<User>)

  /** `handleSubmit`: clear the error, look the pair up, then log in or set
      the error message. */
  function Submit(form: LoginForm, freshId: string): (r: SubmitOutcome)
    ensures r.form.email == form.email && r.form.password == form.password
    ensures r.loggedIn.Some? <==> exists i :: 0 <= i < |DemoUsers| && Matches(DemoUsers[i], form.email, form.password)
    ensures r.loggedIn.Some? ==> r.form.error == "" && r.loggedIn.value.id == freshId
    ensures r.loggedIn.Some? ==> exists i :: 0 <= i < |DemoUsers| && Matches(DemoUsers[i], form.email, form.password)
                                              && r.loggedIn.value == UserFor(DemoUsers[i], freshId)
    ensures r.loggedIn.None? ==> r.form.error == InvalidCredentials
  {
    var cleared := form.(error := "");
    match FindDemoUser(DemoUsers, form.email, form.password)
    case Some(i) => SubmitOutcome(cleared, Some(UserFor(DemoUsers[i], freshId)))
    case None => SubmitOutcome(cleared.(error := InvalidCredentials), None)
  }

  /** `handleQuickLogin`: the row's own fields, no password check. */
  function QuickLogin(u: DemoUser, freshId: string): (r: User)
    ensures r.id == freshId && r.name == u.name
    ensures r.email == u.email && r.role == u.role && r.userType == u.userType
  {
    UserFor(u, freshId)
  }

  /** The table has six rows with pairwise distinct e-mails, all with password "demo". */
  lemma DemoTableShape()
    ensures |DemoUsers| == 6
    ensures forall i, j :: 0 <= i < j < |DemoUsers| ==> DemoUsers[i].email != DemoUsers[j].email
    ensures forall i :: 0 <= i < |DemoUsers| ==> DemoUsers[i].password == "demo"
  {
  }

  /** Every row's stored type is the one its role implies, and neither the
      workshop manager nor the graphics manager has an account. */
  lemma DemoTableRoles()
    ensures forall i :: 0 <= i < |DemoUsers| ==> DemoUsers[i].userType == ExpectedType(DemoUsers[i].role)
    ensures forall i :: 0 <= i < |DemoUsers| ==> DemoUsers[i].role !in {WorkshopManager, GraphicsManager}
  {
  }

  /** Because e-mails are distinct, a successful submit logs in exactly the row
      whose e-mail and password were typed. */
  lemma SubmitPicksThatRow(i: nat, password: string, error: string, freshId: string)
    requires i < |DemoUsers| && password == DemoUsers[i].password
    ensures Submit(LoginForm(DemoUsers[i].email, password, error), freshId).loggedIn
            == Some(UserFor(DemoUsers[i], freshId))
  {
    DemoTableShape();
    var form := LoginForm(DemoUsers[i].email, password, error);
    var j := FindDemoUser(DemoUsers, form.email, form.password);
    assert Matches(DemoUsers[i], form.email, form.password);
    assert j.Some?;
    assert j.value == i;
  }

  /** A quick login for a row gives the same user as typing that row's
      credentials into the form. */
  lemma QuickLoginAgreesWithSubmit(i: nat, freshId: string)
    requires i < |DemoUsers|
    ensures Submit(LoginForm(DemoUsers[i].email, DemoUsers[i].password, ""), freshId).loggedIn
            == Some(QuickLogin(DemoUsers[i], freshId))
  {
    SubmitPicksThatRow(i, DemoUsers[i].password, "", freshId);
  }

  /** The comparison is exact: a trailing space or a capital letter in the
      e-mail is rejected. */
  lemma SubmitIsExact(freshId: string)
    ensures Submit(LoginForm("painter@epower.it ", "demo", ""), freshId).loggedIn.None?
    ensures Submit(LoginForm("Painter@epower.it", "demo", ""), freshId).loggedIn.None?
    ensures Submit(LoginForm("painter@epower.it", "Demo", ""), freshId).form.error == InvalidCredentials
  {
    forall j | 0 <= j < |DemoUsers|
      ensures !Matches(DemoUsers[j], "painter@epower.it ", "demo")
    {
      var row := DemoUsers[j];
      assert row.email[0] == 'p' ==> row.email == "painter@epower.it";
    }
    forall j | 0 <= j < |DemoUsers|
      ensures !Matches(DemoUsers[j], "Painter@epower.it", "demo")
    {
      assert DemoUsers[j].email[0] != 'P';
    }
    forall j | 0 <= j < |DemoUsers|
      ensures !Matches(DemoUsers[j], "painter@epower.it", "Demo")
    {
      assert DemoUsers[j].password[0] != 'D';
    }
  }
}

=== FILE: manager_nav.dfy ===
/** The side bar managers see (ManagerSideNav.tsx): a fixed nine-entry menu
    and, on small screens, an open/closed drawer. */
module ManagerNav {
  import opened Users
  import opened Nav

  /** `navItems`, in display order. */
  const NavItems: seq<NavItem> := [
    NavItem("dashboard", "Dashboard"),
    NavItem("painting", "Verniciatura"),
    NavItem("assembly", "Montaggio"),
    NavItem("disassembly", "Smontaggio"),
    NavItem("graphics", "Grafica & Stampa"),
    NavItem("employees", "Gestione Dipendenti"),
    NavItem("tasks", "Assegna Attività"),
    NavItem("admin", "Amministrazione"),
    NavItem("profile", "Impostazioni")
  ]

  /** No two entries of the side bar share an id. */
  lemma NavItemsDistinct()
    ensures DistinctIds(NavItems)
  {
  }

  /** The menu shown to a given manager: the user is only displayed, never consulted. */
  function MenuFor(u: User): (items: seq<NavItem>)
    ensures Ids(items) == ["dashboard", "painting", "assembly", "disassembly", "graphics",
                           "employees", "tasks", "admin", "profile"]
    ensures DistinctIds(items)
  {
    NavItemsDistinct();
    NavItems
  }

  /** Two managers, whatever their roles and names, see the same menu. */
  lemma MenuIgnoresUser(a: User, b: User)
    ensures MenuFor(a) == MenuFor(b)
  {
  }

  /** At most one entry is highlighted, exactly one when the screen is in the menu. */
  lemma AtMostOneActive(u: User, currentScreen: string)
    ensures ActiveCount(MenuFor(u), currentScreen) <= 1
    ensures ActiveCount(MenuFor(u), currentScreen) == 1 <==> currentScreen in Ids(MenuFor(u))
  {
    ActiveCountOfDistinct(MenuFor(u), currentScreen);
  }

  /** The drawer state of the side bar. */
  datatype Drawer = Drawer(isOpen: bool)

  /** The result of picking an entry: the screen passed to `onNavigate`, and the drawer after. */
  datatype Selection = Selection(screen: string, drawer: Drawer)

  /** `handleNavigate(item.id)` for entry `k`: navigate, then close the drawer. */
  function Select(d: Drawer, k: nat): (r: Selection)
    requires k < |NavItems|
    ensures r.screen in Ids(NavItems) && IsActive(NavItems[k], r.screen)
    ensures ActiveCount(NavItems, r.screen) == 1
    ensures !r.drawer.isOpen
  {
    NavItemsDistinct();
    ActiveCountOfDistinct(NavItems, NavItems[k].id);
    Selection(NavItems[k].id, Drawer(false))
  }

  /** The menu button: flips the drawer. */
  function ToggleDrawer(d: Drawer): (r: Drawer)
    ensures r.isOpen != d.isOpen
  {
    Drawer(!d.isOpen)
  }

  /** The overlay, which is only rendered while the drawer is open: closes it. */
  function CloseOverlay(d: Drawer): (r: Drawer)
    requires d.isOpen
    ensures !r.isOpen
  {
    Drawer(false)
  }

  /** Pressing the menu button twice leaves the drawer as it was. */
  lemma ToggleDrawerTwice(d: Drawer)
    ensures ToggleDrawer(ToggleDrawer(d)) == d
  {
  }
}

=== FILE: nav.dfy ===
/** What the two navigation components share: a menu is an ordered list of
    items, and the item whose id equals the current screen is highlighted. */
module Nav {

  /** One menu entry: the screen id it navigates to and its caption. */
  datatype NavItem = NavItem(id: string, caption: string)

  /** The screen ids of a menu, in order. */
  function Ids(items: seq<NavItem>): (ids: seq<string>)
    ensures |ids| == |items|
    ensures forall k :: 0 <= k < |items| ==> ids[k] == items[k].id
  {
    seq(|items|, k requires 0 <= k < |items| => items[k].id)
  }

  /** No two entries of the menu lead to the same screen. */
  predicate DistinctIds(items: seq<NavItem>) {
    forall i, j :: 0 <= i < j < |items| ==> items[i].id != items[j].id
  }

  /** `currentScreen === item.id`: the highlight test of both menus. */
  predicate IsActive(item: NavItem, currentScreen: string) {
    currentScreen == item.id
  }

  /** How many entries of the menu are highlighted. */
  function ActiveCount(items: seq<NavItem>, currentScreen: string): nat {
    if |items| == 0 then 0
    else (if IsActive(items[0], currentScreen) then 1 else 0) + ActiveCount(items[1..], currentScreen)
  }

  /** In a menu with distinct ids exactly one entry is highlighted when the
      current screen is one of its ids, and none otherwise. */
  lemma {:induction false} ActiveCountOfDistinct(items: seq<NavItem>, currentScreen: string)
    requires DistinctIds(items)
    ensures ActiveCount(items, currentScreen) == if currentScreen in Ids(items) then 1 else 0
  {
    if |items| > 0 {
      var rest := items[1..];
      ActiveCountOfDistinct(rest, currentScreen);
      assert Ids(items) == [items[0].id] + Ids(rest);
      if IsActive(items[0], currentScreen) {
        forall k | 0 <= k < |rest|
          ensures Ids(rest)[k] != currentScreen
        {
          assert rest[k] == items[k + 1];
        }
      }
    }
  }
}

=== FILE: painting.dfy ===
/** The painting area (PaintingArea.tsx): bikes going through three phases,
    primer, painting and finish, each marked done with a timestamp. */
module PaintingArea {
  import opened Wrappers

  /** One phase: done or not, and when it was marked done. */
  datatype Phase = Phase(completed: bool, timestamp: Option<string>)

  /** The three phases of a bike. */
  datatype Phases = Phases(primer: Phase, painting: Phase, finish: Phase)

  /** `keyof Bike['phases']`. */
  datatype PhaseName = PrimerPhase | PaintPhase | FinishPhase

  datatype Priority = High | Medium | Low

  /** A bike in the paint shop. */
  datatype Bike = Bike(id: string, model: string, customer: string, color: string, colorCode: string,
                       notes: string, phases: Phases, priority: Priority)

  /** `bike.phases[phase]`. */
  function GetPhase(ps: Phases, n: PhaseName): Phase {
    match n
    case PrimerPhase => ps.primer
    case PaintPhase => ps.painting
    case FinishPhase => ps.finish
  }

  /** `{ ...bike.phases, [phase]: p }`. */
  function SetPhase(ps: Phases, n: PhaseName, p: Phase): (r: Phases)
    ensures GetPhase(r, n) == p
    ensures forall m :: m != n ==> GetPhase(r, m) == GetPhase(ps, m)
  {
    match n
    case PrimerPhase => ps.(primer := p)
    case PaintPhase => ps.(painting := p)
    case FinishPhase => ps.(finish := p)
  }

  /** The new value of one phase: flipped; stamped with `now` when it becomes
      done, without a timestamp when it is undone. */
  function TogglePhase(p: Phase, now: string): (r: Phase)
    ensures r.completed == !p.completed
    ensures r.completed ==> r.timestamp == Some(now)
    ensures !r.completed ==> r.timestamp.None?
  {
    Phase(!p.completed, if !p.completed then Some(now) else None)
  }

  /** Toggling twice restores the flag; a phase that starts undone (and so
      without a timestamp) comes back exactly as it was. */
  lemma TogglePhaseTwice(p: Phase, now1: string, now2: string)
    ensures TogglePhase(TogglePhase(p, now1), now2).completed == p.completed
    ensures !p.completed && p.timestamp.None? ==> TogglePhase(TogglePhase(p, now1), now2) == p
    ensures p.completed ==> TogglePhase(TogglePhase(p, now1), now2) == Phase(true, Some(now2))
  {
  }

  /** One bike with the named phase toggled; everything else as it was. */
  function ToggleBikePhase(b: Bike, n: PhaseName, now: string): (r: Bike)
    ensures r.(phases := b.phases) == b
    ensures GetPhase(r.phases, n) == TogglePhase(GetPhase(b.phases, n), now)
    ensures forall m :: m != n ==> GetPhase(r.phases, m) == GetPhase(b.phases, m)
  {
    b.(phases := SetPhase(b.phases, n, TogglePhase(GetPhase(b.phases, n), now)))
  }

  /** The `setBikes` update of `handleCompletePhase`: every bike whose id is
      `bikeId` gets the phase toggled; the others, the length and the order
      are untouched. */
  function CompletePhase(bikes: seq<Bike>, bikeId: string, n: PhaseName, now: string): (r: seq<Bike>)
    ensures |r| == |bikes|
    ensures forall i :: 0 <= i < |bikes| && bikes[i].id != bikeId ==> r[i] == bikes[i]
    ensures forall i :: 0 <= i < |bikes| && bikes[i].id == bikeId ==> r[i] == ToggleBikePhase(bikes[i], n, now)
  {
    seq(|bikes|, i requires 0 <= i < |bikes| =>
      if bikes[i].id == bikeId then ToggleBikePhase(bikes[i], n, now) else bikes[i])
  }

  /** An id that no bike carries leaves the list as it was. */
  lemma CompletePhaseUnknownId(bikes: seq<Bike>, bikeId: string, n: PhaseName, now: string)
    requires forall i :: 0 <= i < |bikes| ==> bikes[i].id != bikeId
    ensures CompletePhase(bikes, bikeId, n, now) == bikes
  {
  }

  /** Pressing the same phase button twice restores every flag of every bike;
      the timestamps are the only thing that can differ. */
  lemma CompletePhaseTwice(bikes: seq<Bike>, bikeId: string, n: PhaseName, now1: string, now2: string)
    ensures var r := CompletePhase(CompletePhase(bikes, bikeId, n, now1), bikeId, n, now2);
            |r| == |bikes| &&
            forall i, m :: 0 <= i < |bikes| ==>
              r[i].(phases := bikes[i].phases) == bikes[i] &&
              GetPhase(r[i].phases, m).completed == GetPhase(bikes[i].phases, m).completed
  {
    var mid := CompletePhase(bikes, bikeId, n, now1);
    var r := CompletePhase(mid, bikeId, n, now2);
    forall i, m | 0 <= i < |bikes|
      ensures r[i].(phases := bikes[i].phases) == bikes[i]
      ensures GetPhase(r[i].phases, m).completed == GetPhase(bikes[i].phases, m).completed
    {
      if bikes[i].id == bikeId {
        TogglePhaseTwice(GetPhase(bikes[i].phases, n), now1, now2);
      }
    }
  }

  /** The denominator the progress display divides by. */
  const TotalPhases: nat := 3

  /** `Object.values(phases).filter(p => p.completed).length`. */
  function CompletedPhases(ps: Phases): (k: nat)
    ensures k <= TotalPhases
    ensures k == 0 <==> !ps.primer.completed && !ps.painting.completed && !ps.finish.completed
    ensures k == TotalPhases <==> ps.primer.completed && ps.painting.completed && ps.finish.completed
  {
    (if ps.primer.completed then 1 else 0) + (if ps.painting.completed then 1 else 0)
      + (if ps.finish.completed then 1 else 0)
  }

  /** Each toggle moves the completed count by exactly one, up when the phase
      becomes done and down when it is undone. */
  lemma ToggleMovesCountByOne(b: Bike, n: PhaseName, now: string)
    ensures var before := CompletedPhases(b.phases);
            var after := CompletedPhases(ToggleBikePhase(b, n, now).phases);
            if GetPhase(b.phases, n).completed then after == before - 1 else after == before + 1
  {
  }

  /** The phase listed just before `n` in the detail view, if any. */
  function Predecessor(n: PhaseName): Option<PhaseName> {
    match n
    case PrimerPhase => None
    case PaintPhase => Some(PrimerPhase)
    case FinishPhase => Some(PaintPhase)
  }

  /** Whether the phase's button is enabled in the detail view: primer always,
      painting once primer is done, finish once painting is done. */
  function PhaseEnabled(b: Bike, n: PhaseName): (r: bool)
    ensures r <==> Predecessor(n).None? || GetPhase(b.phases, Predecessor(n).value).completed
  {
    match n
    case PrimerPhase => true
    case PaintPhase => b.phases.primer.completed
    case FinishPhase => b.phases.painting.completed
  }

  /** The gating lives only in the buttons: the handler itself toggles a
      disabled phase just the same. */
  lemma HandlerHasNoGuard(b: Bike, n: PhaseName, now: string)
    requires !PhaseEnabled(b, n)
    ensures GetPhase(CompletePhase([b], b.id, n, now)[0].phases, n).completed != GetPhase(b.phases, n).completed
  {
  }

  /** Even through enabled buttons, "painting done implies primer done" is not
      kept: primer can be undone after painting. */
  lemma PaintingWithoutPrimerReachable(b: Bike, now: string)
    requires b.phases.primer.completed && b.phases.painting.completed
    ensures PhaseEnabled(b, PrimerPhase)
    ensures var r := ToggleBikePhase(b, PrimerPhase, now);
            r.phases.painting.completed && !r.phases.primer.completed
  {
  }

  /** The component's state: the list and the detail view's own copy of the
      selected bike. */
  datatype PaintingState = PaintingState(bikes: seq<Bike>, selected: Option<Bike>)

  /** `handleCompletePhase`: the list update, then the same update on the
      selected copy when its id matches. The two writes read the clock
      separately, so they get two `now` values. */
  function HandleCompletePhase(st: PaintingState, bikeId: string, n: PhaseName, nowList: string, nowSelected: string): (r: PaintingState)
    ensures r.bikes == CompletePhase(st.bikes, bikeId, n, nowList)
    ensures st.selected.Some? && st.selected.value.id == bikeId ==> r.selected == Some(ToggleBikePhase(st.selected.value, n, nowSelected))
    ensures st.selected.None? || st.selected.value.id != bikeId ==> r.selected == st.selected
  {
    var bikes := CompletePhase(st.bikes, bikeId, n, nowList);
    match st.selected
    case Some(s) => if s.id == bikeId then PaintingState(bikes, Some(ToggleBikePhase(s, n, nowSelected))) else st.(bikes := bikes)
    case None => st.(bikes := bikes)
  }

  /** Opening a bike's detail view: a copy of the list entry. */
  function SelectBike(st: PaintingState, i: nat): (r: PaintingState)
    requires i < |st.bikes|
    ensures r.bikes == st.bikes && r.selected == Some(st.bikes[i])
  {
    st.(selected := Some(st.bikes[i]))
  }

  /** The back arrow. */
  function Back(st: PaintingState): (r: PaintingState)
    ensures r.bikes == st.bikes && r.selected.None?
  {
    st.(selected := None)
  }

  /** Bike ids are unique within the list. */
  predicate UniqueIds(bikes: seq<Bike>) {
    forall i, j :: 0 <= i < j < |bikes| ==> bikes[i].id != bikes[j].id
  }

  /** The selected copy, if any, equals the list entry with the same id. */
  predicate InSync(st: PaintingState) {
    st.selected.Some? ==> exists i :: 0 <= i < |st.bikes| && st.bikes[i] == st.selected.value
  }

  /** Opening a bike starts a copy equal to its list entry, and the back
      arrow leaves no copy, so both leave the view in sync. */
  lemma SelectAndBackSync(st: PaintingState, i: nat)
    requires i < |st.bikes|
    ensures InSync(SelectBike(st, i))
    ensures InSync(Back(st))
  {
  }

  /** The dual write keeps the copy equal to the list entry as long as both
      clock reads return the same string. */
  lemma HandleCompletePhaseKeepsSync(st: PaintingState, bikeId: string, n: PhaseName, now: string)
    requires InSync(st)
    ensures var r := HandleCompletePhase(st, bikeId, n, now, now);
            InSync(r)
  {
    var r := HandleCompletePhase(st, bikeId, n, now, now);
    if st.selected.Some? {
      var i :| 0 <= i < |st.bikes| && st.bikes[i] == st.selected.value;
      assert r.bikes[i] == r.selected.value;
    }
  }

  /** When the two clock reads differ, the copy and the list disagree about
      the timestamp of a phase that was just completed. */
  lemma ClockSkewBreaksSync(b: Bike, n: PhaseName, nowList: string, nowSelected: string)
    requires !GetPhase(b.phases, n).completed && nowList != nowSelected
    ensures var r := HandleCompletePhase(PaintingState([b], Some(b)), b.id, n, nowList, nowSelected);
            r.selected.value != r.bikes[0]
  {
    var r := HandleCompletePhase(PaintingState([b], Some(b)), b.id, n, nowList, nowSelected);
    assert GetPhase(r.selected.value.phases, n).timestamp == Some(nowSelected);
    assert GetPhase(r.bikes[0].phases, n).timestamp == Some(nowList);
  }

  /** The list the component mounts with. */
  const MockBikes: seq<Bike> := [
    Bike("B-2024-145", "E-Mountain Pro", "Cliente Premium A", "Rosso Ferrari", "RAL 3020",
         "Finitura lucida, doppio strato",
         Phases(Phase(true, Some("2024-11-21 09:30")), Phase(false, None), Phase(false, None)), High),
    Bike("B-2024-146", "City Comfort", "Cliente B", "Blu Ocean", "RAL 5012", "Finitura opaca",
         Phases(Phase(false, None), Phase(false, None), Phase(false, None)), Medium),
    Bike("B-2024-147", "Urban Speed", "Cliente C", "Verde Militare", "RAL 6003",
         "Attenzione: telaio alluminio",
         Phases(Phase(false, None), Phase(false, None), Phase(false, None)), Low)
  ]

  /** In the seed data the first bike's primer is already done, so its primer
      button undoes it, and its painting button is enabled from the start. */
  lemma SeedPrimerButtonUndoes(now: string)
    ensures UniqueIds(MockBikes)
    ensures PhaseEnabled(MockBikes[0], PaintPhase)
    ensures !CompletePhase(MockBikes, "B-2024-145", PrimerPhase, now)[0].phases.primer.completed
  {
  }
}

=== FILE: profile.dfy ===
/** The profile page (ProfileSettings.tsx): the role caption, the avatar
    initials, and the logout button. */
module Profile {
  import opened Users
  import opened Text

  /** The caption table of `getRoleLabel`. */
  const RoleLabels: LabelTable := map[
    "painter" := "Verniciatore",
    "assembly_tech" := "Meccanico Montaggio",
    "disassembly_tech" := "Meccanico Smontaggio",
    "graphics_tech" := "Area Grafica & Stampa",
    "production_manager" := "Responsabile Produzione",
    "workshop_manager" := "Responsabile Officina",
    "graphics_manager" := "Responsabile Grafica",
    "admin_accounting" := "Amministrazione & Contabilità"
  ]

  /** `getRoleLabel`: every role key gets a non-empty caption different from
      the key; any other string is shown as it is. */
  function RoleLabel(key: string): (r: string)
    ensures key in RoleKeys ==> r != key && r != ""
    ensures key !in RoleKeys ==> r == key
  {
    LabelOrKey(RoleLabels, key)
  }

  /** The captions of the eight roles. */
  lemma RoleLabelValues()
    ensures RoleLabel(RoleKey(Painter)) == "Verniciatore"
    ensures RoleLabel(RoleKey(AssemblyTech)) == "Meccanico Montaggio"
    ensures RoleLabel(RoleKey(DisassemblyTech)) == "Meccanico Smontaggio"
    ensures RoleLabel(RoleKey(GraphicsTech)) == "Area Grafica & Stampa"
    ensures RoleLabel(RoleKey(ProductionManager)) == "Responsabile Produzione"
    ensures RoleLabel(RoleKey(WorkshopManager)) == "Responsabile Officina"
    ensures RoleLabel(RoleKey(GraphicsManager)) == "Responsabile Grafica"
    ensures RoleLabel(RoleKey(AdminAccounting)) == "Amministrazione & Contabilità"
  {
  }

  /** No two roles share a caption, so the caption identifies the role. */
  lemma RoleLabelInjective(a: Role, b: Role)
    ensures RoleLabel(RoleKey(a)) == RoleLabel(RoleKey(b)) <==> a == b
  {
  }

  /** `n[0]` for one piece of the name, where the `undefined` of an empty
      piece joins as nothing. */
  function FirstChar(segment: string): string {
    if |segment| == 0 then "" else [segment[0]]
  }

  /** `segments.map(n => n[0]).join('')`. */
  function Heads(segments: seq<string>): string {
    if |segments| == 0 then "" else FirstChar(segments[0]) + Heads(segments[1..])
  }

  /** The avatar text: `user.name.split(' ').map(n => n[0]).join('')`. */
  function Initials(name: string): (r: string)
    ensures r == WordStarts(name, true)
  {
    HeadsOfSplit(name);
    Heads(Split(name))
  }

  /** The number of non-empty pieces. */
  function NonEmptyCount(segments: seq<string>): nat {
    if |segments| == 0 then 0
    else (if |segments[0]| > 0 then 1 else 0) + NonEmptyCount(segments[1..])
  }

  /** Reference reading of the initials: scanning left to right, keep each
      non-space character that begins the string or follows a space. */
  function WordStarts(s: string, afterSpace: bool): string {
    if |s| == 0 then ""
    else (if s[0] != ' ' && afterSpace then [s[0]] else "") + WordStarts(s[1..], s[0] == ' ')
  }

  /** Helper for `InitialsAreWordStarts`: the pieces after the first one give
      the word starts of a string read as continuing a word. */
  lemma {:induction false} HeadsOfSplit(s: string)
    ensures Heads(Split(s)) == WordStarts(s, true)
    ensures Heads(Split(s)[1..]) == WordStarts(s, false)
  {
    if |s| > 0 {
      var rest := Split(s[1..]);
      HeadsOfSplit(s[1..]);
      if s[0] == ' ' {
        assert Split(s) == [""] + rest;
        assert Split(s)[1..] == rest;
      } else {
        assert Split(s) == [[s[0]] + rest[0]] + rest[1..];
        assert Split(s)[1..] == rest[1..];
      }
    }
  }

  /** The initials are the first characters of the words, where a word is a
      maximal run of non-space characters. */
  lemma InitialsAreWordStarts(name: string)
    ensures Initials(name) == WordStarts(name, true)
  {
    HeadsOfSplit(name);
  }

  /** Helper for `InitialsLength`. */
  lemma {:induction false} HeadsLength(segments: seq<string>)
    ensures |Heads(segments)| == NonEmptyCount(segments)
  {
    if |segments| > 0 {
      HeadsLength(segments[1..]);
    }
  }

  /** One initial per non-empty piece of the name. */
  lemma InitialsLength(name: string)
    ensures |Initials(name)| == NonEmptyCount(Split(name))
  {
    HeadsLength(Split(name));
  }

  /** The rest of a word contributes no initial. */
  lemma {:induction false} SkipWord(word: string, rest: string)
    requires ' ' !in word
    ensures WordStarts(word + rest, false) == WordStarts(rest, false)
  {
    if |word| > 0 {
      assert (word + rest)[1..] == word[1..] + rest;
      SkipWord(word[1..], rest);
    } else {
      assert word + rest == rest;
    }
  }

  /** A name of two words separated by one space has the first letters of
      the two words as its word starts, and so as its initials. */
  lemma TwoWordStarts(first: string, last: string)
    requires |first| > 0 && |last| > 0 && ' ' !in first && ' ' !in last
    ensures WordStarts(first + " " + last, true) == [first[0], last[0]]
    ensures Initials(first + " " + last) == [first[0], last[0]]
  {
    var gap := " " + last;
    var s := first + " " + last;
    assert s[0] == first[0] && s[1..] == first[1..] + gap;
    SkipWord(first[1..], gap);
    assert gap[0] == ' ' && gap[1..] == last;
    assert last[1..] == last[1..] + "";
    SkipWord(last[1..], "");
  }

  /** The word starts of "Marco Rossi". */
  lemma WordStartsExample()
    ensures WordStarts("Marco Rossi", true) == "MR"
  {
    TwoWordStarts("Marco", "Rossi");
    assert "Marco" + " " + "Rossi" == "Marco Rossi";
  }

  /** "Marco Rossi" gives "MR"; the empty name gives no initials. */
  lemma InitialsExamples()
    ensures Initials("Marco Rossi") == "MR"
    ensures Initials("") == ""
  {
    InitialsAreWordStarts("Marco Rossi");
    WordStartsExample();
  }

  /** What the page shows about the user: avatar, name, the caption under the
      name, and the disabled role field. */
  datatype ProfileCard = ProfileCard(initials: string, name: string, headerRole: string, roleField: string)

  /** The page's user card: the avatar shows the name's word starts, the name
      is shown as it is, and header and role field show the role's caption,
      never the raw role key. */
  function CardFor(u: User): (c: ProfileCard)
    ensures c.name == u.name
    ensures c.initials == Initials(u.name) == WordStarts(u.name, true)
    ensures c.headerRole == RoleLabel(RoleKey(u.role)) && c.roleField == c.headerRole
    ensures c.headerRole != RoleKey(u.role)
    ensures |c.initials| == NonEmptyCount(Split(u.name))
  {
    InitialsLength(u.name);
    ProfileCard(Initials(u.name), u.name, RoleLabel(RoleKey(u.role)), RoleLabel(RoleKey(u.role)))
  }
}

=== FILE: text.dfy ===
/** String helpers shared by the components: JavaScript's `trim`, `split(' ')`,
    and the `labels[key] || key` lookup every label function uses. */
module Text {
  /** The characters JavaScript's `String.prototype.trim` removes: the
      ECMAScript WhiteSpace and LineTerminator code points. */
  predicate IsJsSpace(c: char) {
    || c == ' ' || c == '\t' || c == '\n' || c == '\U{000B}' || c == '\U{000C}' || c == '\r'
    || c == '\U{00A0}' || c == '\U{1680}' || ('\U{2000}' <= c <= '\U{200A}')
    || c == '\U{2028}' || c == '\U{2029}' || c == '\U{202F}' || c == '\U{205F}'
    || c == '\U{3000}' || c == '\U{FEFF}'
  }

  /** A string `trim` reduces to nothing. */
  predicate Blank(s: string) {
    forall i :: 0 <= i < |s| ==> IsJsSpace(s[i])
  }

  /** Drops leading white space. */
  function TrimStart(s: string): (r: string)
    ensures |r| <= |s| && r == s[|s| - |r|..]
    ensures forall i :: 0 <= i < |s| - |r| ==> IsJsSpace(s[i])
    ensures |r| > 0 ==> !IsJsSpace(r[0])
  {
    if |s| > 0 && IsJsSpace(s[0]) then TrimStart(s[1..]) else s
  }

  /** Drops trailing white space. */
  function TrimEnd(s: string): (r: string)
    ensures |r| <= |s| && r == s[..|r|]
    ensures forall i :: |r| <= i < |s| ==> IsJsSpace(s[i])
    ensures |r| > 0 ==> !IsJsSpace(r[|r| - 1])
  {
    if |s| > 0 && IsJsSpace(s[|s| - 1]) then TrimEnd(s[..|s| - 1]) else s
  }

  /** JavaScript's `s.trim()`. */
  function Trim(s: string): (r: string)
    ensures |r| <= |s|
    ensures |r| > 0 ==> !IsJsSpace(r[0]) && !IsJsSpace(r[|r| - 1])
  {
    TrimEnd(TrimStart(s))
  }

  /** Helper for `TrimIsInfix`: a suffix that drops only white space, then a
      prefix of it that drops only white space, leave a contiguous piece of the
      input with only white space around it. */
  lemma TrimPieces(s: string, t: string, r: string)
    requires |t| <= |s| && t == s[|s| - |t|..]
    requires forall k :: 0 <= k < |s| - |t| ==> IsJsSpace(s[k])
    requires |r| <= |t| && r == t[..|r|]
    requires forall k :: |r| <= k < |t| ==> IsJsSpace(t[k])
    ensures var i := |s| - |t|;
            r == s[i..i + |r|] && Blank(s[..i]) && Blank(s[i + |r|..])
  {
    var i := |s| - |t|;
    var head, tail := s[..i], s[i + |r|..];
    forall k | 0 <= k < |head|
      ensures IsJsSpace(head[k])
    {
      assert head[k] == s[k];
    }
    forall k | 0 <= k < |tail|
      ensures IsJsSpace(tail[k])
    {
      assert tail[k] == s[i + |r| + k] == t[|r| + k];
    }
    assert r == s[i..i + |r|] by {
      forall k | 0 <= k < |r|
        ensures r[k] == s[i..i + |r|][k]
      {
        assert r[k] == t[k] == s[i + k];
      }
    }
  }

  /** The trimmed text is the input with exactly its leading and trailing
      white space removed: a contiguous piece with only white space around it. */
  lemma TrimIsInfix(s: string)
    ensures var r := Trim(s);
            exists i :: 0 <= i <= |s| - |r| && r == s[i..i + |r|] && Blank(s[..i]) && Blank(s[i + |r|..])
  {
    var t := TrimStart(s);
    var r := TrimEnd(t);
    TrimPieces(s, t, r);
    var i := |s| - |t|;
    assert Trim(s) == r;
    assert 0 <= i <= |s| - |r| && r == s[i..i + |r|] && Blank(s[..i]) && Blank(s[i + |r|..]);
  }

  /** `!s.trim()` holds exactly when every character of `s` is white space. */
  lemma TrimEmptyIffBlank(s: string)
    ensures Trim(s) == "" <==> Blank(s)
  {
    var t := TrimStart(s);
    if |t| > 0 {
      assert TrimEnd(t)[0] == t[0];
    }
  }

  /** JavaScript's `s.split(' ')`: the pieces between single spaces, with an
      empty piece for every leading, trailing or doubled space. */
  function Split(s: string): (segs: seq<string>)
    ensures |segs| >= 1
    ensures forall k :: 0 <= k < |segs| ==> ' ' !in segs[k]
  {
    if |s| == 0 then [""]
    else if s[0] == ' ' then [""] + Split(s[1..])
    else
      var rest := Split(s[1..]);
      [[s[0]] + rest[0]] + rest[1..]
  }

  /** `segs.join(' ')`. */
  function JoinSpaces(segs: seq<string>): string
    requires |segs| >= 1
  {
    if |segs| == 1 then segs[0] else segs[0] + " " + JoinSpaces(segs[1..])
  }

  /** Splitting on spaces loses nothing: joining the pieces gives the string back. */
  lemma {:induction false} JoinSplit(s: string)
    ensures JoinSpaces(Split(s)) == s
  {
    if |s| == 0 {
    } else if s[0] == ' ' {
      JoinSplit(s[1..]);
      assert Split(s)[1..] == Split(s[1..]);
      assert s == " " + s[1..];
    } else {
      var rest := Split(s[1..]);
      JoinSplit(s[1..]);
      if |rest| == 1 {
        assert Split(s) == [[s[0]] + rest[0]];
      } else {
        assert Split(s)[1..] == rest[1..];
        assert JoinSpaces(rest) == rest[0] + " " + JoinSpaces(rest[1..]);
      }
      assert s == [s[0]] + s[1..];
    }
  }

  /** A label table: the source's `Record<string, string>` object literal. */
  type LabelTable = map<string, string>

  /** `labels[key] || key` with the table's own keys only: the label when the
      key is present and its label is truthy (non-empty), otherwise the key itself. */
  function LabelOrKey(table: LabelTable, key: string): (r: string)
    ensures key !in table ==> r == key
    ensures key in table && table[key] != "" ==> r == table[key]
    ensures r == key || r in table.Values
  {
    if key in table && table[key] != "" then table[key] else key
  }

  /** The own properties of Object.prototype, which every object literal
      inherits in JavaScript. */
  const ObjectPrototypeMembers: set<string> := {
    "constructor", "hasOwnProperty", "isPrototypeOf", "propertyIsEnumerable",
    "toLocaleString", "toString", "valueOf", "__proto__",
    "__defineGetter__", "__defineSetter__", "__lookupGetter__", "__lookupSetter__"
  }

  /** The JavaScript values a property read on a label table can produce. */
  datatype JsValue = JsString(s: string) | JsInherited(name: string) | JsUndefined

  /** JavaScript truthiness of those values: the empty string and undefined are
      falsy, every inherited member (a function or an object) is truthy. */
  predicate Truthy(v: JsValue) {
    match v
    case JsString(s) => s != ""
    case JsInherited(_) => true
    case JsUndefined => false
  }

  /** `labels[key]` on the object literal: own property first, then the
      prototype chain. */
  function PropertyGet(table: LabelTable, key: string): (r: JsValue)
    ensures key in table ==> r == JsString(table[key])
    ensures key !in table && key !in ObjectPrototypeMembers ==> r == JsUndefined
  {
    if key in table then JsString(table[key])
    else if key in ObjectPrototypeMembers then JsInherited(key)
    else JsUndefined
  }

  /** `labels[key] || key` as the source writes it. */
  function LabelOrKeyAsWritten(table: LabelTable, key: string): (r: JsValue)
    ensures key !in ObjectPrototypeMembers ==> r == JsString(LabelOrKey(table, key))
  {
    var v := PropertyGet(table, key);
    if Truthy(v) then v else JsString(key)
  }

  /** The as-written lookup does not fall back to the key for a name that
      Object.prototype carries: for "toString" it yields the inherited function,
      where the own-key reading gives back "toString". */
  lemma AsWrittenLeaksPrototypeMember(table: LabelTable)
    requires "toString" !in table
    ensures LabelOrKeyAsWritten(table, "toString") == JsInherited("toString")
    ensures LabelOrKey(table, "toString") == "toString"
  {
  }
}

=== FILE: users.dfy ===
/** The user record the whole dashboard passes around (declared in App.tsx). */
module Users {
  import opened Wrappers

  /** The closed set of job roles. */
  datatype Role =
    | Painter | AssemblyTech | DisassemblyTech | GraphicsTech
    | ProductionManager | WorkshopManager | GraphicsManager | AdminAccounting

  /** Employee or manager: stored beside the role, never derived from it. */
  datatype UserType = Employee | Manager

  /** The logged-in person. `id` is a random string generated at login. */
  datatype User = User(id: string, name: string, email: string, role: Role, userType: UserType)

  /** Every role spelling. */
  const RoleKeys: set<string> := {
    "painter", "assembly_tech", "disassembly_tech", "graphics_tech",
    "production_manager", "workshop_manager", "graphics_manager", "admin_accounting"
  }

  /** The string spelling of each role, as the source's string-literal union writes it. */
  function RoleKey(r: Role): (key: string)
    ensures key in RoleKeys
  {
    match r
    case Painter => "painter"
    case AssemblyTech => "assembly_tech"
    case DisassemblyTech => "disassembly_tech"
    case GraphicsTech => "graphics_tech"
    case ProductionManager => "production_manager"
    case WorkshopManager => "workshop_manager"
    case GraphicsManager => "graphics_manager"
    case AdminAccounting => "admin_accounting"
  }

  /** The role a string spells, if it spells one. */
  function ParseRole(key: string): (r: Option<Role>)
    ensures r.Some? <==> key in RoleKeys
  {
    match key
    case "painter" => Some(Painter)
    case "assembly_tech" => Some(AssemblyTech)
    case "disassembly_tech" => Some(DisassemblyTech)
    case "graphics_tech" => Some(GraphicsTech)
    case "production_manager" => Some(ProductionManager)
    case "workshop_manager" => Some(WorkshopManager)
    case "graphics_manager" => Some(GraphicsManager)
    case "admin_accounting" => Some(AdminAccounting)
    case _ => None
  }

  /** Spelling a role and reading it back is the identity, in both directions. */
  lemma RoleKeyRoundTrip(r: Role, key: string)
    ensures ParseRole(RoleKey(r)) == Some(r)
    ensures key in RoleKeys ==> RoleKey(ParseRole(key).value) == key
  {
  }

  /** The four shop-floor roles. */
  predicate IsEmployeeRole(r: Role) {
    r in {Painter, AssemblyTech, DisassemblyTech, GraphicsTech}
  }

  /** The type the seed data pairs with each role. */
  function ExpectedType(r: Role): UserType {
    if IsEmployeeRole(r) then Employee else Manager
  }

}

=== FILE: wrappers.dfy ===
/** The optional value used throughout the model for the source's `T | null`,
    `T | undefined` and optional record fields. */
module Wrappers {

  datatype Option<+T> = None | Some(value: T)
}
